=== FILE: README.md ===
# Maze generation: a verified model

This project models the core of a grid maze generator and solver, written in Java. The maze is a grid of
`rows x cols` cells, numbered row by row. It is carved in the following way:

- Draw a random cell and a random wall of that cell (0 north, 1 east, 2 south, 3 west).
- If a cell lies behind that wall and the two cells are not yet connected, knock the wall down. This joins
  their sets in a union-find structure and adds an undirected edge to an adjacency-list graph.
- Stop once the graph has `cellCount - 1` edges.

The graph then derives a wall descriptor (`Cell`) for every cell. It also finds the route from cell 0 (the
entrance) to the last cell (the exit), by depth-first search or by breadth-first search.

The model has seven modules:

- `Wrappers` (`wrappers.dfy`): the `Option` type. The depth-first searches return it, and `None` stands for the exception the iterative search raises.
- `DisjointSetForest` (`disjoint_sets.dfy`):
  - the union-find class `DisjointSets`, over an `array<int>`;
  - an entry is either a parent index or minus the tree's height;
  - ghost state: the root of every element (`Rep`) and a rank that makes `Find` terminate;
  - `Find` compresses paths in place; `Union` links by height.
- `DisjointSetScenarios` (`disjoint_sets_scenarios.dfy`): the scenarios of the repository's unit tests, proved
  from the contracts of `DisjointSets`.
- `Cells` (`cell.dfy`): the class `Cell`, four door flags in an `array<bool>`.
- `Adjacency` (`adjacency.dfy`): the graph as a value.
  - It is a `map<int, seq<int>>` from vertex to neighbour list, head first.
  - It defines symmetry, the degree sum, walks and reachability.
  - It proves how adding an edge changes reachability.
- `Graph` (`maze_graph.dfy`): the class `MazeGraph`. Its fields are the adjacency map and the edge count. It
  implements edge insertion, the cell map, the recursive and iterative depth-first searches, and the
  breadth-first search.
- `MazeGenerator` (`maze_generator.dfy`):
  - the neighbour computation `getNeighbor`, with Java's truncating `%`;
  - one round of the generation loop;
  - the loop itself, with the random draws passed in as a sequence;
  - the invariant linking the partition, the root count and the graph: two cells share a set exactly when a
    passage route joins them, and edges + sets = cells;
  - what that invariant gives once the loop ends: a connected spanning tree, so that `dfs` and `bfs` find the
    exit.

Where the source's own comments promise more than its code does, the model follows the code:

- `dfs()` returns the route from the exit back to the entrance (target first). Its Javadoc
  (`MazeGraph.java:130-134`) describes a list of cells from 0 to `cellCount - 1`.
  - The recursive search appends each vertex after its successor.
  - The iterative search pops its stack into the list.
- The breadth-first search does not stop when it meets the exit. The comments at `MazeGraph.java:260` and
  `MazeGraph.java:275` suggest that it does.
  - Its `break` leaves only the scan of one neighbour list, and the queue is drained to the end.
  - That `break` also skips the rest of that list.
  - The exit itself is never enqueued by a scan. It is queued only when it is vertex 0, the start, on a single-vertex grid.
- The comment at `MazeGraph.java:267` speaks of mapping the paths of new cells, but predecessors are
  recorded for every unvisited neighbour. A vertex that is still in the queue, unvisited, gets its predecessor
  overwritten by every later vertex that lists it.
- The door a passage opens is judged only from the index difference of its two cells (`-1`, `1`, negative,
  non-negative). On a single-column grid, vertical passages are therefore drawn as east/west doors
  (`MazeGenerator.SingleColumnDoors`).
- Two of the comments beside those doors name the opposite side: `setDoor(Cell.EAST)` at `MazeGraph.java:79`
  is commented "West", and `setDoor(Cell.WEST)` at `MazeGraph.java:87` is commented "East". The comments at
  lines 82 and 90 match their doors. The model follows the code.

## Model

| member | source | states |
|---|---|---|
| DisjointSetForest.DisjointSets.constructor | src/main/java/generation/DisjointSets.java:20-26 | every entry is -1: each element is alone in its set, its own representative, and the roots are exactly 0..n-1 |
| DisjointSetForest.DisjointSets.Find | src/main/java/generation/DisjointSets.java:34-41 | returns the root of the element's tree (an entry < 0, the element's representative); the array becomes `Compressed`: every non-root entry on the path from the element to its root now names that root, and every other entry is unchanged; the partition and the set of roots are unchanged, and the forest invariant is kept |
| DisjointSetForest.DisjointSets.Union | src/main/java/generation/DisjointSets.java:51-75 | true exactly when the two elements were in different sets; afterwards two elements share a set iff they did before or each was in one of the two merged sets; on a merge the root with the taller tree adopts the other (first's root on a tie, its height grown by one), the loser leaves the set of roots; apart from that link the entries are exactly those left by `find(first)` then `find(second)`; on no merge the partition and the roots are unchanged and the entries are just those two compressions |
| DisjointSetForest.DisjointSets.Link | src/main/java/generation/DisjointSets.java:56-72 | of two distinct roots the taller tree's root (the first on a tie) becomes the parent of the other; a tie grows the winner's height by one; the partition merges the loser's set into the winner's and the loser stops being a root |
| DisjointSetForest.DisjointSets.SameSet | src/main/java/generation/DisjointSets.java:84-87 | true iff both elements have the same representative; the entries are exactly those left by `find(first)` then `find(second)`, so roots and partition are unchanged |
| DisjointSetForest.CompressionKeepsForest | src/main/java/generation/DisjointSets.java:40 | re-pointing any non-root entries at their own roots keeps a well-formed forest with the same representatives |
| DisjointSetForest.PathOf | src/main/java/generation/DisjointSets.java:34-41 | the elements `find` passes through hold the element and its root, and all lie in the element's set |
| DisjointSetForest.Compressed | src/main/java/generation/DisjointSets.java:34-41 | the entries after `find`: same length, still a well-formed forest with the same representatives, and the same roots |
| DisjointSetForest.CompressedPair | src/main/java/generation/DisjointSets.java:53-54 | the entries after two finds, as in `union` and `sameSet`: a well-formed forest with the same roots |
| DisjointSetForest.CompressionKeepsRoots | src/main/java/generation/DisjointSets.java:40 | compression that only re-points non-root entries at their roots leaves the set of roots unchanged |
| DisjointSetForest.LinkKeepsForest | src/main/java/generation/DisjointSets.java:58-71 | linking the shorter tree under the taller (or either on a tie, growing the height) keeps a forest in which heights bound ranks |
| DisjointSetForest.LinkRemovesLoser | src/main/java/generation/DisjointSets.java:58-71 | after linking, the roots are the old roots minus the loser |
| DisjointSetForest.MergeJoins | src/main/java/generation/DisjointSets.java:56-72 | relabelling the loser root's elements with the winner joins exactly the two sets of the arguments and nothing else |
| DisjointSetScenarios.FindCompressesPathOnly | src/main/java/generation/DisjointSets.java:40 | `find(3)` on the chain 3 -> 2 -> 1 -> 0 with 4 also under 1 re-points 3, 2 and 1 at 0 and leaves 4 pointing at 1 |
| DisjointSetScenarios.FindOnFresh | src/test/java/generation/DisjointSetsTest.java:22-27 | on a fresh structure of n sets `find(i) == i` for every i |
| DisjointSetScenarios.FindAfterTwoUnions | src/test/java/generation/DisjointSetsTest.java:47-50 | after `union(0,1); union(0,2)` on ten sets, `find(2)` is 0 (one of the two answers the test accepts) |
| DisjointSetScenarios.JoinedRelabels | src/main/java/generation/DisjointSets.java:51-75 | a union that joins two sets acts on block labels as renaming the second element's label to the first's |
| DisjointSetScenarios.TestLabelsValue | src/test/java/generation/DisjointSetsTest.java:57-63 | the labels left by the test's six unions are [0,0,0,0,4,4,9,7,9,9] |
| DisjointSetScenarios.ApplyTestUnions | src/test/java/generation/DisjointSetsTest.java:56-62 | the test's six unions leave the blocks {0,1,2,3}, {4,5}, {6,8,9}, {7} |
| DisjointSetScenarios.PartitionAfterUnions | src/test/java/generation/DisjointSetsTest.java:54-97 | after those unions `sameSet(i, j)` is true exactly for i, j in one of those blocks, for all pairs |
| Cells.OpenDoorAddsSide | src/main/java/generation/Cell.java:20-22 | opening a door adds exactly that side to the open sides, and opening it again changes nothing |
| Cells.Cell.constructor | src/main/java/generation/Cell.java:9 | a new cell has all four walls standing and no open side |
| Cells.Cell.SetDoor | src/main/java/generation/Cell.java:20-22 | the given slot becomes false, the other three keep their value, the open sides grow by exactly that side |
| Cells.Cell.GetDoors | src/main/java/generation/Cell.java:28-30 | returns the cell's own array, so later changes show through it |
| Adjacency.AddArc | src/main/java/generation/MazeGraph.java:51-60 | the head of the list of `first` is `second` followed by the old list (a missing list starts empty); every other list and the other keys are unchanged |
| Adjacency.WithEdgeNeighbors | src/main/java/generation/MazeGraph.java:46-47 | after both arcs, a vertex's neighbours are its old ones plus the other end when it is an end of the edge |
| Adjacency.WithEdgeSymmetric | src/main/java/generation/MazeGraph.java:41-49 | adding both arcs keeps the lists symmetric |
| Adjacency.WithEdgeNoDuplicates | src/main/java/generation/MazeGraph.java:41-49 | adding a new edge between distinct vertices keeps every list free of repeats |
| Adjacency.SumDegreesUpdate | src/main/java/generation/MazeGraph.java:48 | replacing one list changes the total list length by the difference, so two arcs per edge keep it at twice the edge count |
| Adjacency.SumDegreesEmptyLists | src/main/java/generation/MazeGraph.java:28-33 | a graph of empty lists has total list length 0 |
| Adjacency.Reverse | src/main/java/generation/MazeGraph.java:152-154 | popping a stack into a list reverses it: same length, element i is element n-1-i |
| Adjacency.ReachableSymmetric | src/main/java/generation/MazeGraph.java:105-109 | in a symmetric graph reachability is symmetric (undirected) |
| Adjacency.ClosedContainsReachable | src/main/java/generation/MazeGraph.java:161-186 | a vertex set closed under neighbours contains everything reachable from its members |
| Adjacency.ReachableWithEdge | src/main/java/generation/MazeGraph.java:41-49 | after adding edge a-b, y is reachable from x iff it was, or x reaches one end and the other end reaches y |
| Graph.WallOf | src/main/java/generation/MazeGraph.java:76-92 | the door opened for index difference d: EAST iff d = -1, SOUTH iff d < -1, WEST iff d = 1, NORTH iff d >= 0 and d != 1 |
| Graph.DoorsForOpen | src/main/java/generation/MazeGraph.java:74-94 | a door of the derived descriptor is open iff some listed neighbour lies in that direction |
| Graph.MazeGraph.constructor | src/main/java/generation/MazeGraph.java:28-33 | the vertices are exactly 0..n-1, all lists empty, no edges, and the graph is well formed |
| Graph.MazeGraph.ContainsEdge | src/main/java/generation/MazeGraph.java:101-120 | true iff both ends are vertices and `second` is on the list of `first` |
| Graph.MazeGraph.AddDirectedEdge | src/main/java/generation/MazeGraph.java:51-60 | the map becomes `AddArc` of the old map; the edge count is unchanged |
| Graph.MazeGraph.AddEdge | src/main/java/generation/MazeGraph.java:41-49 | an edge already present changes nothing; otherwise both arcs are added and the count grows by one; unknown ends become vertices; both ends list each other afterwards, other lists are untouched, symmetry and the edge-count identity are kept, and lists stay repeat-free for distinct ends |
| Graph.MazeGraph.GetEdgeCount | src/main/java/generation/MazeGraph.java:126-128 | the count of undirected edges, which is half the total length of the lists |
| Graph.MazeGraph.CellMap | src/main/java/generation/MazeGraph.java:66-99 | one fresh, unshared cell per vertex; its doors are those opened, in list order, towards every listed neighbour |
| Graph.ExtendBackPath | src/main/java/generation/MazeGraph.java:177-179 | appending the current vertex to a path found from a neighbour still gives a repeat-free path back from the target |
| Graph.BackPathIsRoute | src/main/java/generation/MazeGraph.java:161-186 | in a symmetric graph the path the recursive search builds, read from the target, is a route to 0, so the target is reachable |
| Graph.ClosedSeparates | src/main/java/generation/MazeGraph.java:168-185 | a neighbour-closed set holding 0 but not the target proves the target unreachable |
| Graph.MazeGraph.DfsRecursive | src/main/java/generation/MazeGraph.java:161-186 | on success the vertices from the target back to `current` are appended and form a repeat-free path; on failure the list is unchanged, the target is not visited and every newly visited vertex has all its neighbours visited |
| Graph.FirstUnvisited | src/main/java/generation/MazeGraph.java:204-212 | the position of the first list entry not yet visited, or the list length when all are |
| Graph.VisitStep | src/main/java/generation/MazeGraph.java:197-201 | first visiting a vertex pushes it and keeps the stack invariant (a repeat-free walk from 0 through visited vertices) |
| Graph.MoveStep | src/main/java/generation/MazeGraph.java:205-210 | moving to an unvisited neighbour of the top keeps the stack invariant |
| Graph.PopStep | src/main/java/generation/MazeGraph.java:214-219 | a dead end is popped keeping the invariant; popping the last entry means the target is unreachable |
| Graph.FinishStep | src/main/java/generation/MazeGraph.java:220-222 | reaching the target, the stack plus the target is a repeat-free walk from 0 to it |
| Graph.MazeGraph.DfsIterative | src/main/java/generation/MazeGraph.java:191-223 | a returned stack is a repeat-free walk from 0 with the target on top; `None` (the empty-stack exception) only when the target is unreachable |
| Graph.ReversedWalkIsRoute | src/main/java/generation/MazeGraph.java:149-155 | the reversed walk is a route from the target back to 0 |
| Graph.MazeGraph.Dfs | src/main/java/generation/MazeGraph.java:135-157 | an empty list when there are too few edges; a non-empty result is a repeat-free route from the last vertex to 0, and one is returned iff there are enough edges and the last vertex is reachable; `None` (the stack search's exception) exactly beyond 700 vertices when there are enough edges and the exit is unreachable |
| Graph.Stop | src/main/java/generation/MazeGraph.java:259-263 | where the scan of a list stops: no entry before it is the target, and the entry at it, if any, is the target |
| Graph.Fresh | src/main/java/generation/MazeGraph.java:265-269 | the entries of a list that are not yet visited: a vertex is in it iff it is in the list and unvisited |
| Graph.Unvisited | src/main/java/generation/MazeGraph.java:266-269 | the set of vertices a scan may record: a vertex is in it iff it is in the list and unvisited |
| Graph.Record | src/main/java/generation/MazeGraph.java:259-269 | the predecessor map after `put(v, current)` for every vertex of a set: its keys are the old keys plus the set, the set's vertices map to `current` and every other key keeps its value |
| Graph.RecordAdd | src/main/java/generation/MazeGraph.java:259-269 | recording one more vertex is exactly one `put` of it with `current` |
| Graph.PrefixStep | src/main/java/generation/MazeGraph.java:265-272 | one more scanned entry extends what is enqueued and what is recorded by that entry alone, and only when it is unvisited |
| Graph.ScanAdvanceFresh | src/main/java/generation/MazeGraph.java:265-271 | scanning an unvisited entry that is not the target maps it to `current` and appends it to the queue, keeping the scan's invariant one entry further |
| Graph.ScanAdvanceVisited | src/main/java/generation/MazeGraph.java:265-271 | scanning a visited entry that is not the target changes nothing and keeps the scan's invariant one entry further |
| Graph.ScanFinish | src/main/java/generation/MazeGraph.java:259-263 | a scan that meets the target (which is then mapped to `current`) or reaches the end of the list has exactly the effect `ScanResult` describes |
| Graph.MazeGraph.ScanNeighbors | src/main/java/generation/MazeGraph.java:258-274 | exactly: the unvisited neighbours before the first occurrence of the target are appended to the queue in list order; they, and the target when it is listed (visited or not), are mapped to `current`, overwriting any earlier value; every other key keeps its value and no key is removed |
| Graph.ScanResultScanned | src/main/java/generation/MazeGraph.java:258-274 | the exact effect of a scan keeps the old keys and queue prefix, adds the target as a key iff it is listed, only enqueues unvisited non-target neighbours that become keys, and, when the target is not listed, leaves every neighbour visited or queued |
| Graph.ScanStopsAtTarget | src/main/java/generation/MazeGraph.java:259-273 | for a vertex listing 5, 9, 7 with target 9, the only outcome of the scan maps 5 and 9 to it and enqueues just 5; 7, after the target, is never looked at |
| Graph.BfsSkip | src/main/java/generation/MazeGraph.java:249-253 | polling an already visited vertex keeps the search invariant |
| Graph.BfsVisit | src/main/java/generation/MazeGraph.java:249-274 | visiting a polled vertex and scanning its list keeps the search invariant (queue, predecessor, frontier and visiting-order parts) |
| Graph.TraceBack | src/main/java/generation/MazeGraph.java:275-276 | following the predecessor map from a visited vertex reaches 0 along passages, with visiting order falling |
| Graph.BfsDone | src/main/java/generation/MazeGraph.java:248-277 | when the queue is empty the target is a key iff it is reachable, and the map is a forest rooted at 0 |
| Graph.PredRoute | src/main/java/generation/MazeGraph.java:275-276 | the map read back from the target is a route from the target to 0 |
| Graph.MazeGraph.BfsIterative | src/main/java/generation/MazeGraph.java:239-277 | every key is a neighbour of its value, which is reachable from 0; unless the target is 0, 0 is not a key, the map leads back to 0 and the target is a key iff it is reachable |
| Graph.MazeGraph.Bfs | src/main/java/generation/MazeGraph.java:229-236 | an empty map when there are too few edges; otherwise the search's map for the last vertex, with the same guarantees |
| MazeGenerator.JavaRem | src/main/java/gui/MazeUICompleted.java:121 | Java's `%`: equal to the mathematical remainder for a non-negative dividend, and for a negative one the value in (-b, 0] congruent to the dividend modulo b (the remainder truncated toward zero) |
| MazeGenerator.Neighbor | src/main/java/gui/MazeUICompleted.java:114-130 | the neighbour through a wall is -1 or the cell one row up, one column right, one row down or one column left |
| MazeGenerator.NorthOnGrid | src/main/java/gui/MazeUICompleted.java:116-118 | for the cell at (row, col) the north neighbour is (row-1, col), or -1 on the first row |
| MazeGenerator.EastOnGrid | src/main/java/gui/MazeUICompleted.java:119-121 | the east neighbour is (row, col+1), or -1 in the last column |
| MazeGenerator.SouthOnGrid | src/main/java/gui/MazeUICompleted.java:122-124 | the south neighbour is (row+1, col), or -1 on the last row |
| MazeGenerator.WestOnGrid | src/main/java/gui/MazeUICompleted.java:125-127 | the west neighbour is (row, col-1), or -1 in the first column |
| MazeGenerator.NeighborOnGrid | src/main/java/gui/MazeUICompleted.java:114-130 | `getNeighbor` agrees with the row/column definition of grid adjacency for all four walls, and is -1 for any other wall number |
| MazeGenerator.NeighborInRange | src/main/java/gui/MazeUICompleted.java:114-130 | on a grid of whole rows a neighbour is -1 or another cell of the grid |
| MazeGenerator.NeighborInverse | src/main/java/gui/MazeUICompleted.java:114-130 | going back through the opposite wall of the neighbour returns to the cell |
| MazeGenerator.NeighborDoors | src/main/java/generation/MazeGraph.java:76-92 | with at least two columns, the passage knocked through a wall is drawn as that door on the cell and the opposite door on the neighbour |
| MazeGenerator.SingleColumnDoors | src/main/java/generation/MazeGraph.java:76-92 | with one column, passages exist only through north and south walls and are drawn as west/east doors |
| MazeGenerator.PassageOpensDoors | src/main/java/generation/MazeGraph.java:66-99 | once a passage through a wall is in the graph, the cell map opens that door on the cell and the opposite door on the neighbour |
| MazeGenerator.NewMaze | src/main/java/gui/MazeUICompleted.java:48-50 | `rows * cols` singleton sets and a graph of as many isolated vertices satisfy the generation invariant, with no edges |
| MazeGenerator.JoinKeepsConnectivity | src/main/java/gui/MazeUICompleted.java:62-66 | if sets coincide with connected components before, joining the sets of two cells and adding the passage between them keeps them coinciding |
| MazeGenerator.JoinStep | src/main/java/gui/MazeUICompleted.java:62-66 | a union of cells in different sets together with the new passage keeps the invariant: the passage was absent, the cells were not connected, one set fewer and one edge more |
| MazeGenerator.JoinCells | src/main/java/gui/MazeUICompleted.java:64-66 | `union` then `addEdge` on unconnected cells keeps the invariant, adds exactly that passage, one edge more and one set fewer |
| MazeGenerator.GenerationStep | src/main/java/gui/MazeUICompleted.java:56-67 | one loop round with a drawn cell and wall keeps the invariant; it adds the passage iff the wall has a neighbour not yet connected (one edge more, one set fewer), otherwise graph and partition are unchanged |
| MazeGenerator.EdgeBound | src/main/java/gui/MazeUICompleted.java:54 | under the invariant there are never more than `cellCount - 1` edges, so the loop cannot overshoot |
| MazeGenerator.CompleteMazeConnected | src/main/java/gui/MazeUICompleted.java:54 | once there are `cellCount - 1` edges every pair of cells is connected, the graph has exactly the cells as vertices, and the exit is reachable from the entrance (so `dfs`/`bfs` pass their edge-count guard) |
| MazeGenerator.GenerateMaze | src/main/java/gui/MazeUICompleted.java:46-68 | from a fresh structure the loop keeps the invariant; it stops before the draws run out only once the maze has `cellCount - 1` edges, and never exceeds that |

## Left out

- Drawing with JavaFX (`drawMaze`, entrance and exit doors at `MazeUICompleted.java:84-85`), the UI class's layout code, `runAlgorithm` and the empty `dfs`/`bfs` stubs of the UI: presentation only.
- `toString` of `DisjointSets`, `Cell`, `MazeGraph` and its `Node`: text output only.
- `ThreadLocalRandom`: the cell and wall draws are parameters (`draws` in `MazeGenerator.GenerateMaze`, `nextCell`/`wall` in `MazeGenerator.GenerationStep`).
- MazeGenerator.GenerateMaze: runs over a finite sequence of draws instead of looping until done, so termination of the random loop (with probability one) is not modelled; it states instead that it stops early only once the maze is complete.
- Java's 32-bit `int` overflow: indices and counts are unbounded integers. This matches the source for any grid where `cellCount + cols` fits in an `int`.
- MazeGenerator.Neighbor: does not model the wrap of `cell + getCols()` at `MazeUICompleted.java:123`. When `cellCount + cols` exceeds the `int` range, that sum can wrap to a negative index; the source returns it, and `sameSet` then throws. The model returns -1 there.
- The linked list `Node` of `MazeGraph` is a `seq<int>` per vertex (head first); a `null` list and an empty one are the same, and the `HashMap` is a Dafny `map`.
- Graph.MazeGraph.CellMap: the order in which `HashMap` keys are visited is unspecified, so the model picks keys in an arbitrary order; the result does not depend on it.
- DisjointSetForest.DisjointSets.Find: an index out of range throws `ArrayIndexOutOfBoundsException` in the source; the model requires the index to be in range (likewise `Union` and `SameSet`).
- DisjointSetForest.DisjointSets.constructor: a negative size throws `NegativeArraySizeException`; the model requires `numSets >= 0`.
- MazeGenerator.Neighbor: requires `cols > 0`; with zero columns the source divides by zero.
- Graph.MazeGraph.DfsRecursive: the shared `traversal` list and `visited` set are passed in and returned as values rather than mutated in place.
- Graph.MazeGraph.DfsIterative: the `EmptyStackException` raised when the search backs up past the start (target unreachable) is the result `None`; the `visited` set passed in by `dfs` is always empty and is a local.
- Graph.MazeGraph.Dfs: the stack depth that `MAX_RECURSIVE_SEARCH` guards against is not modelled; only the choice between the two searches is.
- Graph.MazeGraph.Bfs: the facts about `SOURCE` and the predecessor forest are stated for graphs other than the single-vertex one, where the target is the source itself.
- Graph.MazeGraph.BfsIterative: the ghost `rank` result (the visiting order) is proof-only; the source returns only the map.
- Cells.Cell.GetDoors: aliasing is captured by returning the field itself; nothing else about later writes through it is stated.
- `containsVertex` (`MazeGraph.java:101-103`) is folded into `Graph.MazeGraph.ContainsEdge` as key membership.
- The spanning-tree property is stated through the count identity (edges + sets = cells) and the equivalence of sets and connected components, not as an explicit absence of cycles; uniqueness of routes, and so whether BFS finds a shorter route than DFS, is not stated.

=== FILE: adjacency.dfy ===
/**
 * Adjacency lists of the passage graph as a map from vertex to the list of its
 * neighbours (most recently added first), with the graph notions the maze code
 * relies on: symmetry, duplicate-free lists, the degree sum, walks and
 * reachability.
 */
module Adjacency {

  /** The list stored for `v`; a vertex without an entry has no neighbours. */
  function Neighbors(adj: map<int, seq<int>>, v: int): seq<int>
  {
    if v in adj then adj[v] else []
  }

  /** Every passage is recorded at both of its ends. */
  ghost predicate Symmetric(adj: map<int, seq<int>>)
  {
    forall a, b :: b in Neighbors(adj, a) <==> a in Neighbors(adj, b)
  }

  ghost predicate DuplicateFree(s: seq<int>)
  {
    forall i, j :: 0 <= i < j < |s| ==> s[i] != s[j]
  }

  /** No adjacency list names the same neighbour twice. */
  ghost predicate NoDuplicates(adj: map<int, seq<int>>)
  {
    forall v :: v in adj ==> DuplicateFree(adj[v])
  }

  /** A set is empty or has a member: what a `:|` choice from it needs. */
  lemma EmptyOrHasMember(s: set<int>)
    ensures s == {} || exists x :: x in s
  {
    if forall x :: x !in s {
      assert s == {};
    }
  }

  /** Some vertex with an entry; used to sum over the entries one at a time. */
  ghost function SomeKey(adj: map<int, seq<int>>): (k: int)
    requires adj != map[]
    ensures k in adj
  {
    EmptyOrHasMember(adj.Keys);
    var k :| k in adj.Keys; k
  }

  /** The total length of all adjacency lists. */
  ghost function SumDegrees(adj: map<int, seq<int>>): nat
    decreases |adj|
  {
    if adj == map[] then 0
    else
      var k := SomeKey(adj);
      assert |adj - {k}| == |adj| - 1 by { assert (adj - {k}).Keys == adj.Keys - {k}; }
      |adj[k]| + SumDegrees(adj - {k})
  }

  /** The degree sum may be taken apart at any vertex, not just at the one `SomeKey` picks. */
  lemma {:induction false} SumDegreesRemove(adj: map<int, seq<int>>, k: int)
    requires k in adj
    ensures SumDegrees(adj) == |adj[k]| + SumDegrees(adj - {k})
    decreases |adj|
  {
    var j := SomeKey(adj);
    if j != k {
      assert (adj - {j}).Keys == adj.Keys - {j};
      assert (adj - {k}).Keys == adj.Keys - {k};
      SumDegreesRemove(adj - {j}, k);
      SumDegreesRemove(adj - {k}, j);
      assert adj - {j} - {k} == adj - {k} - {j};
    }
  }

  /** Replacing the list of `k` changes the degree sum by the difference in length. */
  lemma SumDegreesUpdate(adj: map<int, seq<int>>, k: int, l: seq<int>)
    ensures SumDegrees(adj[k := l]) == SumDegrees(adj) - |Neighbors(adj, k)| + |l|
  {
    SumDegreesRemove(adj[k := l], k);
    assert adj[k := l] - {k} == adj - {k};
    if k in adj {
      SumDegreesRemove(adj, k);
    } else {
      assert adj - {k} == adj;
    }
  }

  /** A map whose lists are all empty has degree sum 0. */
  lemma {:induction false} SumDegreesEmptyLists(adj: map<int, seq<int>>)
    requires forall v :: v in adj ==> adj[v] == []
    ensures SumDegrees(adj) == 0
    decreases |adj|
  {
    if adj != map[] {
      var k := SomeKey(adj);
      assert (adj - {k}).Keys == adj.Keys - {k};
      SumDegreesEmptyLists(adj - {k});
    }
  }

  /** Prepends `b` to the list of `a`, creating the entry when `a` has none. */
  function AddArc(adj: map<int, seq<int>>, a: int, b: int): (adj': map<int, seq<int>>)
    ensures adj'.Keys == adj.Keys + {a}
    ensures Neighbors(adj', a) == [b] + Neighbors(adj, a)
    ensures forall v :: v != a ==> Neighbors(adj', v) == Neighbors(adj, v)
  {
    adj[a := [b] + Neighbors(adj, a)]
  }

  /** The undirected passage `a`-`b`: an arc each way. */
  function WithEdge(adj: map<int, seq<int>>, a: int, b: int): map<int, seq<int>>
  {
    AddArc(AddArc(adj, a, b), b, a)
  }

  /** The neighbours after adding `a`-`b`: the old ones plus the other end of the new passage. */
  lemma WithEdgeNeighbors(adj: map<int, seq<int>>, a: int, b: int, v: int, u: int)
    ensures u in Neighbors(WithEdge(adj, a, b), v) <==>
              u in Neighbors(adj, v) || (v == a && u == b) || (v == b && u == a)
  {
    var mid := AddArc(adj, a, b);
    assert u in Neighbors(mid, v) <==> u in Neighbors(adj, v) || (v == a && u == b) by {
      if v == a { assert Neighbors(mid, v) == [b] + Neighbors(adj, v); }
    }
    if v == b { assert Neighbors(WithEdge(adj, a, b), v) == [a] + Neighbors(mid, v); }
  }

  lemma WithEdgeSymmetric(adj: map<int, seq<int>>, a: int, b: int)
    requires Symmetric(adj)
    ensures Symmetric(WithEdge(adj, a, b))
  {
    var adj' := WithEdge(adj, a, b);
    forall x, y ensures y in Neighbors(adj', x) <==> x in Neighbors(adj', y) {
      WithEdgeNeighbors(adj, a, b, x, y);
      WithEdgeNeighbors(adj, a, b, y, x);
    }
  }

  /** Adding a passage between two distinct vertices not yet joined keeps every list duplicate-free. */
  lemma WithEdgeNoDuplicates(adj: map<int, seq<int>>, a: int, b: int)
    requires NoDuplicates(adj) && a != b
    requires b !in Neighbors(adj, a) && a !in Neighbors(adj, b)
    ensures NoDuplicates(WithEdge(adj, a, b))
  {
    var mid := AddArc(adj, a, b);
    var adj' := WithEdge(adj, a, b);
    forall v | v in adj' ensures DuplicateFree(adj'[v]) {
      assert adj'[v] == Neighbors(adj', v);
      if v == a {
        assert adj'[v] == [b] + Neighbors(adj, a);
      } else if v == b {
        assert adj'[v] == [a] + Neighbors(adj, b);
      } else {
        assert adj'[v] == adj[v];
      }
    }
  }

  /** A walk: a non-empty vertex sequence in which each vertex lists the next as a neighbour. */
  ghost predicate IsWalk(adj: map<int, seq<int>>, w: seq<int>)
  {
    && |w| > 0
    && forall i :: 0 <= i < |w| - 1 ==> w[i + 1] in Neighbors(adj, w[i])
  }

  ghost predicate Reachable(adj: map<int, seq<int>>, x: int, y: int)
  {
    exists w :: IsWalk(adj, w) && w[0] == x && w[|w| - 1] == y
  }

  lemma ReachableRefl(adj: map<int, seq<int>>, x: int)
    ensures Reachable(adj, x, x)
  {
    assert IsWalk(adj, [x]);
  }

  lemma ReachableStep(adj: map<int, seq<int>>, x: int, y: int, z: int)
    requires Reachable(adj, x, y) && z in Neighbors(adj, y)
    ensures Reachable(adj, x, z)
  {
    var w :| IsWalk(adj, w) && w[0] == x && w[|w| - 1] == y;
    assert IsWalk(adj, w + [z]);
  }

  lemma ReachableTrans(adj: map<int, seq<int>>, x: int, y: int, z: int)
    requires Reachable(adj, x, y) && Reachable(adj, y, z)
    ensures Reachable(adj, x, z)
  {
    var w1 :| IsWalk(adj, w1) && w1[0] == x && w1[|w1| - 1] == y;
    var w2 :| IsWalk(adj, w2) && w2[0] == y && w2[|w2| - 1] == z;
    var w := w1 + w2[1..];
    forall i | 0 <= i < |w| - 1 ensures w[i + 1] in Neighbors(adj, w[i]) {
      if i < |w1| - 1 {
      } else {
        assert w[i] == w2[i - |w1| + 1] && w[i + 1] == w2[i - |w1| + 2];
      }
    }
    assert IsWalk(adj, w);
  }

  function Reverse(w: seq<int>): (r: seq<int>)
    ensures |r| == |w|
    ensures forall i :: 0 <= i < |w| ==> r[i] == w[|w| - 1 - i]
  {
    if w == [] then [] else Reverse(w[1..]) + [w[0]]
  }

  /** In a symmetric graph a walk read backwards is a walk, so reachability is symmetric. */
  lemma ReachableSymmetric(adj: map<int, seq<int>>, x: int, y: int)
    requires Symmetric(adj) && Reachable(adj, x, y)
    ensures Reachable(adj, y, x)
  {
    var w :| IsWalk(adj, w) && w[0] == x && w[|w| - 1] == y;
    var r := Reverse(w);
    forall i | 0 <= i < |r| - 1 ensures r[i + 1] in Neighbors(adj, r[i]) {
      var j := |w| - 2 - i;
      assert w[j + 1] in Neighbors(adj, w[j]);
    }
    assert IsWalk(adj, r);
  }

  /** `s` is closed: every neighbour of a member is a member. */
  ghost predicate Closed(adj: map<int, seq<int>>, s: set<int>)
  {
    forall v :: v in s ==> forall u :: u in Neighbors(adj, v) ==> u in s
  }

  lemma {:induction false} WalkStaysInClosed(adj: map<int, seq<int>>, s: set<int>, w: seq<int>)
    requires Closed(adj, s) && IsWalk(adj, w) && w[0] in s
    ensures w[|w| - 1] in s
    decreases |w|
  {
    if |w| > 1 {
      var prefix := w[..|w| - 1];
      assert IsWalk(adj, prefix);
      WalkStaysInClosed(adj, s, prefix);
      assert prefix[|prefix| - 1] == w[|w| - 2];
      assert w[|w| - 2] in s;
      assert forall u :: u in Neighbors(adj, w[|w| - 2]) ==> u in s;
      assert w[|w| - 1] in Neighbors(adj, w[|w| - 2]);
    }
  }

  /** A closed set holding `x` holds every vertex reachable from `x`. */
  lemma ClosedContainsReachable(adj: map<int, seq<int>>, s: set<int>, x: int, y: int)
    requires Closed(adj, s) && x in s && Reachable(adj, x, y)
    ensures y in s
  {
    var w :| IsWalk(adj, w) && w[0] == x && w[|w| - 1] == y;
    WalkStaysInClosed(adj, s, w);
  }

  /** A walk in the old graph is a walk once a passage is added. */
  lemma WalkSurvivesEdge(adj: map<int, seq<int>>, a: int, b: int, w: seq<int>)
    requires IsWalk(adj, w)
    ensures IsWalk(WithEdge(adj, a, b), w)
  {
    forall i | 0 <= i < |w| - 1 ensures w[i + 1] in Neighbors(WithEdge(adj, a, b), w[i]) {
      WithEdgeNeighbors(adj, a, b, w[i], w[i + 1]);
    }
  }

  lemma ReachableSurvivesEdge(adj: map<int, seq<int>>, a: int, b: int, x: int, y: int)
    requires Reachable(adj, x, y)
    ensures Reachable(WithEdge(adj, a, b), x, y)
  {
    var w :| IsWalk(adj, w) && w[0] == x && w[|w| - 1] == y;
    WalkSurvivesEdge(adj, a, b, w);
  }

  /** What the end of a walk in the graph with `a`-`b` added can be, seen in the old graph. */
  ghost predicate ReachableVia(adj: map<int, seq<int>>, a: int, b: int, x: int, y: int)
  {
    Reachable(adj, x, y) || (Reachable(adj, x, a) && Reachable(adj, b, y)) ||
    (Reachable(adj, x, b) && Reachable(adj, a, y))
  }

  lemma {:induction false} WalkWithEdge(adj: map<int, seq<int>>, a: int, b: int, w: seq<int>)
    requires IsWalk(WithEdge(adj, a, b), w)
    ensures ReachableVia(adj, a, b, w[0], w[|w| - 1])
    decreases |w|
  {
    var x := w[0];
    if |w| == 1 {
      ReachableRefl(adj, x);
    } else {
      var prefix := w[..|w| - 1];
      assert IsWalk(WithEdge(adj, a, b), prefix);
      WalkWithEdge(adj, a, b, prefix);
      var y, z := w[|w| - 2], w[|w| - 1];
      assert z in Neighbors(WithEdge(adj, a, b), y);
      WithEdgeNeighbors(adj, a, b, y, z);
      if z in Neighbors(adj, y) {
        if Reachable(adj, x, y) {
          ReachableStep(adj, x, y, z);
        } else if Reachable(adj, x, a) && Reachable(adj, b, y) {
          ReachableStep(adj, b, y, z);
        } else {
          ReachableStep(adj, a, y, z);
        }
      } else if y == a && z == b {
        ReachableRefl(adj, b);
        if Reachable(adj, x, y) {
        } else if Reachable(adj, x, a) && Reachable(adj, b, y) {
          ReachableTrans(adj, x, a, b);
        } else {
        }
      } else {
        assert y == b && z == a;
        ReachableRefl(adj, a);
        if Reachable(adj, x, y) {
        } else if Reachable(adj, x, a) && Reachable(adj, b, y) {
        } else {
          ReachableTrans(adj, x, b, a);
        }
      }
    }
  }

  /**
   * After adding the passage `a`-`b`, `y` is reachable from `x` iff it was before,
   * or `x` reaches one end of the new passage and `y` is reachable from the other.
   */
  lemma ReachableWithEdge(adj: map<int, seq<int>>, a: int, b: int, x: int, y: int)
    ensures Reachable(WithEdge(adj, a, b), x, y) <==> ReachableVia(adj, a, b, x, y)
  {
    var adj' := WithEdge(adj, a, b);
    if Reachable(adj', x, y) {
      var w :| IsWalk(adj', w) && w[0] == x && w[|w| - 1] == y;
      WalkWithEdge(adj, a, b, w);
    }
    if ReachableVia(adj, a, b, x, y) {
      WithEdgeNeighbors(adj, a, b, a, b);
      WithEdgeNeighbors(adj, a, b, b, a);
      if Reachable(adj, x, y) {
        ReachableSurvivesEdge(adj, a, b, x, y);
      } else if Reachable(adj, x, a) && Reachable(adj, b, y) {
        ReachableSurvivesEdge(adj, a, b, x, a);
        ReachableSurvivesEdge(adj, a, b, b, y);
        ReachableStep(adj', x, a, b);
        ReachableTrans(adj', x, b, y);
      } else {
        ReachableSurvivesEdge(adj, a, b, x, b);
        ReachableSurvivesEdge(adj, a, b, a, y);
        ReachableStep(adj', x, b, a);
        ReachableTrans(adj', x, a, y);
      }
    }
  }
}

=== FILE: cell.dfy ===
/**
 * The wall descriptor of one maze cell: four booleans indexed by direction,
 * where `true` means the wall is standing and `false` that a door is open.
 */
module Cells {

  /** The sides whose door is open (whose slot is false). */
  ghost function OpenSidesOf(doors: seq<bool>): set<int>
  {
    set i | 0 <= i < |doors| && !doors[i]
  }

  /** Opening door `d` adds exactly side `d` to the open sides, and doing it twice is doing it once. */
  lemma OpenDoorAddsSide(doors: seq<bool>, d: int)
    requires 0 <= d < |doors|
    ensures OpenSidesOf(doors[d := false]) == OpenSidesOf(doors) + {d}
    ensures doors[d := false][d := false] == doors[d := false]
  {
    var after := doors[d := false];
    forall i ensures i in OpenSidesOf(after) <==> i in OpenSidesOf(doors) + {d} {
      if 0 <= i < |doors| && i != d {
        assert after[i] == doors[i];
      }
    }
  }

  class Cell {
    static const NORTH: int := 0
    static const EAST: int := 1
    static const SOUTH: int := 2
    static const WEST: int := 3

    const doors: array<bool>

    ghost function OpenSides(): set<int>
      reads doors
    {
      OpenSidesOf(doors[..])
    }

    /** A new cell has all four walls standing. */
    constructor ()
      ensures fresh(doors) && doors.Length == 4
      ensures forall i :: 0 <= i < 4 ==> doors[i]
      ensures OpenSides() == {}
    {
      doors := new bool[4](_ => true);
    }

    /** Opens the door on side `door`; the other three slots keep their value. */
    method SetDoor(door: int)
      requires 0 <= door < doors.Length
      modifies doors
      ensures doors[..] == old(doors[..])[door := false]
      ensures OpenSides() == old(OpenSides()) + {door}
    {
      OpenDoorAddsSide(doors[..], door);
      doors[door] := false;
    }

    /** The cell's own array (not a copy), so the caller sees later changes. */
    method GetDoors() returns (r: array<bool>)
      ensures r == doors
    {
      r := doors;
    }
  }
}

=== FILE: disjoint_sets.dfy ===
/**
 * Union-find over the cells of the maze: one int array in which a negative entry
 * marks a root and holds minus the height of its tree, and a non-negative entry
 * is a parent pointer. `Find` compresses paths, `Union` merges by height.
 */
module DisjointSetForest {

  /**
   * What a well-formed forest asks of entry `i` of `s`: either `i` is a root that
   * represents itself and whose rank is its stored height - 1, or `s[i]` points
   * at an element of the same set whose rank is larger. `rep` gives each element
   * its root, `rank` is the ghost rank and `maxRank` bounds every rank.
   */
  ghost predicate EntryOk(s: seq<int>, rep: seq<int>, rank: seq<nat>, maxRank: nat, i: int)
    requires |rep| == |s| && |rank| == |s| && 0 <= i < |s|
  {
    && s[i] < |s|
    && 0 <= rep[i] < |s| && s[rep[i]] < 0
    && (s[i] < 0 ==> rep[i] == i && rank[i] == -s[i] - 1)
    && (s[i] >= 0 ==> rep[i] == rep[s[i]] && rank[i] < rank[s[i]] && rank[i] < rank[rep[i]])
    && rank[i] <= maxRank
  }

  ghost predicate Forest(s: seq<int>, rep: seq<int>, rank: seq<nat>, maxRank: nat)
  {
    && |rep| == |s|
    && |rank| == |s|
    && (forall i :: 0 <= i < |s| ==> 0 <= rep[i] < |s|)
    && (forall i :: 0 <= i < |s| ==> EntryOk(s, rep, rank, maxRank, i))
  }

  /** The partition after the set rooted at `loser` is merged into the one rooted at `winner`. */
  ghost function Merge(rep: seq<int>, winner: int, loser: int): (rep': seq<int>)
    ensures |rep'| == |rep|
    ensures forall x :: 0 <= x < |rep| ==> rep'[x] == if rep[x] == loser then winner else rep[x]
  {
    seq(|rep|, x requires 0 <= x < |rep| => if rep[x] == loser then winner else rep[x])
  }

  /**
   * Linking the root `loser` under the root `winner`, where `winner`'s tree is at
   * least as tall (decrementing `winner`'s entry on a tie), keeps the forest well
   * formed once the ranks and the partition are updated to match.
   */
  lemma LinkKeepsForest(s: seq<int>, rep: seq<int>, rank: seq<nat>, maxRank: nat,
                        winner: int, loser: int, tie: bool)
    requires Forest(s, rep, rank, maxRank)
    requires 0 <= winner < |s| && 0 <= loser < |s| && winner != loser
    requires s[winner] < 0 && s[loser] < 0
    requires tie <==> s[winner] == s[loser]
    requires !tie ==> s[winner] < s[loser]
    ensures var rank' := if tie then rank[winner := rank[winner] + 1] else rank;
            var maxRank' := if maxRank < rank'[winner] then rank'[winner] else maxRank;
            Forest(Linked(s, winner, loser, tie),
                   Merge(rep, winner, loser), rank', maxRank')
  {
    var rank' := if tie then rank[winner := rank[winner] + 1] else rank;
    var maxRank' := if maxRank < rank'[winner] then rank'[winner] else maxRank;
    var s' := Linked(s, winner, loser, tie);
    var rep' := Merge(rep, winner, loser);
    assert EntryOk(s, rep, rank, maxRank, winner);
    assert EntryOk(s, rep, rank, maxRank, loser);
    assert rank[loser] < rank'[winner];
    forall i | 0 <= i < |s|
      ensures EntryOk(s', rep', rank', maxRank', i)
    {
      assert EntryOk(s, rep, rank, maxRank, i);
      if i != loser && i != winner && s[i] >= 0 {
        assert EntryOk(s, rep, rank, maxRank, s[i]);
      }
    }
  }

  /** The roots of `s`: the entries holding a (negated) height rather than a parent. */
  ghost function RootsOf(s: seq<int>): set<int>
  {
    set i | 0 <= i < |s| && s[i] < 0
  }

  /**
   * `after` differs from `before` only by path compression: every
   * entry is unchanged or is a former parent pointer now naming its root in `rep`.
   */
  ghost predicate CompressedOnly(before: seq<int>, after: seq<int>, rep: seq<int>)
    requires |rep| == |before|
  {
    && |after| == |before|
    && forall j :: 0 <= j < |before| ==>
         after[j] == before[j] || (before[j] >= 0 && after[j] == rep[j])
  }

  /** Re-pointing any non-root entries at their roots (path compression) keeps the forest well formed. */
  lemma CompressionKeepsForest(s: seq<int>, s': seq<int>, rep: seq<int>, rank: seq<nat>, maxRank: nat)
    requires Forest(s, rep, rank, maxRank)
    requires CompressedOnly(s, s', rep)
    ensures Forest(s', rep, rank, maxRank)
  {
    forall i | 0 <= i < |s|
      ensures EntryOk(s', rep, rank, maxRank, i)
    {
      assert EntryOk(s, rep, rank, maxRank, i);
      assert EntryOk(s, rep, rank, maxRank, rep[i]);
      if s[i] >= 0 {
        assert EntryOk(s, rep, rank, maxRank, s[i]);
      }
    }
  }

  /** Compression never turns a root into a pointer or a pointer into a root. */
  lemma CompressionKeepsRoots(before: seq<int>, after: seq<int>, rep: seq<int>)
    requires |rep| == |before| && forall j :: 0 <= j < |rep| ==> rep[j] >= 0
    requires CompressedOnly(before, after, rep)
    ensures RootsOf(after) == RootsOf(before)
  {
  }

  /** The elements `find(e)` passes through: `e`, its parent, and so on up to its root. */
  ghost function PathOf(s: seq<int>, rep: seq<int>, rank: seq<nat>, maxRank: nat, e: int): (p: set<int>)
    requires Forest(s, rep, rank, maxRank) && 0 <= e < |s|
    ensures e in p && rep[e] in p
    ensures forall j :: j in p ==> 0 <= j < |s| && rep[j] == rep[e]
    decreases maxRank - rank[e]
  {
    assert EntryOk(s, rep, rank, maxRank, e);
    if s[e] < 0 then {e}
    else
      assert EntryOk(s, rep, rank, maxRank, s[e]);
      {e} + PathOf(s, rep, rank, maxRank, s[e])
  }

  /**
   * The entries after `find(e)`: each non-root on the path from `e` names the
   * root of `e`, and every other entry is as before.
   */
  ghost function Compressed(s: seq<int>, rep: seq<int>, rank: seq<nat>, maxRank: nat, e: int): (s': seq<int>)
    requires Forest(s, rep, rank, maxRank) && 0 <= e < |s|
    ensures |s'| == |s| && Forest(s', rep, rank, maxRank) && RootsOf(s') == RootsOf(s)
  {
    var path := PathOf(s, rep, rank, maxRank, e);
    var s' := seq(|s|, j requires 0 <= j < |s| => if j in path && s[j] >= 0 then rep[e] else s[j]);
    CompressionKeepsForest(s, s', rep, rank, maxRank);
    CompressionKeepsRoots(s, s', rep);
    s'
  }

  /** The entries after `find(a)` followed by `find(b)`. */
  ghost function CompressedPair(s: seq<int>, rep: seq<int>, rank: seq<nat>, maxRank: nat, a: int, b: int): (s': seq<int>)
    requires Forest(s, rep, rank, maxRank) && 0 <= a < |s| && 0 <= b < |s|
    ensures |s'| == |s| && Forest(s', rep, rank, maxRank) && RootsOf(s') == RootsOf(s)
  {
    Compressed(Compressed(s, rep, rank, maxRank, a), rep, rank, maxRank, b)
  }

  /**
   * The union step on two distinct roots: the root with the more negative entry
   * becomes the parent, and on a tie `r1` does and its entry is decremented.
   */
  function Winner(s: seq<int>, r1: int, r2: int): int
    requires 0 <= r1 < |s| && 0 <= r2 < |s|
  {
    if s[r2] < s[r1] then r2 else r1
  }

  /** The parent entries after hanging root `loser` under root `winner`. */
  function Linked(s: seq<int>, winner: int, loser: int, tie: bool): seq<int>
    requires 0 <= winner < |s| && 0 <= loser < |s|
  {
    s[loser := winner][winner := s[winner] - (if tie then 1 else 0)]
  }

  /** Merging two sets removes exactly the losing root from the roots. */
  lemma LinkRemovesLoser(s: seq<int>, winner: int, loser: int, tie: bool)
    requires 0 <= winner < |s| && 0 <= loser < |s| && winner != loser
    requires s[winner] < 0 && s[loser] < 0
    ensures RootsOf(Linked(s, winner, loser, tie)) == RootsOf(s) - {loser}
  {
    var s' := Linked(s, winner, loser, tie);
    forall i ensures i in RootsOf(s') <==> i in RootsOf(s) - {loser} {
      if 0 <= i < |s| {
        assert s'[i] < 0 <==> i != loser && s[i] < 0;
      }
    }
  }

  /**
   * `rep'` is the partition `rep` after the sets of `a` and `b` are joined: two
   * elements share a root iff they shared one before, or each lay in the set of
   * `a` or in the set of `b`.
   */
  ghost predicate Joined(rep: seq<int>, rep': seq<int>, a: int, b: int)
    requires 0 <= a < |rep| && 0 <= b < |rep|
  {
    && |rep'| == |rep|
    && forall x, y :: 0 <= x < |rep| && 0 <= y < |rep| ==>
         (rep'[x] == rep'[y] <==>
            rep[x] == rep[y] ||
            ((rep[x] == rep[a] || rep[x] == rep[b]) && (rep[y] == rep[a] || rep[y] == rep[b])))
  }

  /** Merging the roots of `a` and `b` joins exactly their two sets. */
  lemma MergeJoins(rep: seq<int>, a: int, b: int, winner: int, loser: int)
    requires 0 <= a < |rep| && 0 <= b < |rep| && winner != loser
    requires (winner == rep[a] && loser == rep[b]) || (winner == rep[b] && loser == rep[a])
    ensures Joined(rep, Merge(rep, winner, loser), a, b)
  {
    var rep' := Merge(rep, winner, loser);
    forall x, y | 0 <= x < |rep| && 0 <= y < |rep|
      ensures rep'[x] == rep'[y] <==>
                rep[x] == rep[y] ||
                ((rep[x] == rep[a] || rep[x] == rep[b]) && (rep[y] == rep[a] || rep[y] == rep[b]))
    {
      assert rep'[x] == if rep[x] == loser then winner else rep[x];
      assert rep'[y] == if rep[y] == loser then winner else rep[y];
    }
  }

  class DisjointSets {
    var sets: array<int>

    // Ghost view of the partition: the root each element belongs to.
    ghost var Rep: seq<int>
    // Ghost rank: strictly grows from child to parent; equals height - 1 at a root.
    ghost var Rank: seq<nat>
    // An upper bound on every rank, so that `Find` has a termination measure.
    ghost var MaxRank: nat

    ghost predicate Valid()
      reads this, sets
    {
      Forest(sets[..], Rep, Rank, MaxRank)
    }

    /** The roots, one per set of the partition. */
    ghost function Roots(): set<int>
      reads this, sets
    {
      RootsOf(sets[..])
    }

    /** A new structure with `numSets` singleton sets: every entry is -1. */
    constructor (numSets: int)
      requires numSets >= 0
      ensures Valid() && fresh(sets)
      ensures sets.Length == numSets
      ensures forall i :: 0 <= i < numSets ==> sets[i] == -1 && Rep[i] == i
      ensures forall i :: i in Roots() <==> 0 <= i < numSets
    {
      sets := new int[numSets](_ => -1);
      Rep := seq(numSets, i => i);
      Rank := seq(numSets, i => 0);
      MaxRank := 0;
      new;
      forall i | 0 <= i < numSets
        ensures EntryOk(sets[..], Rep, Rank, MaxRank, i)
      {
      }
    }

    /**
     * Returns the root of `element`'s tree and re-points every non-root entry on
     * the path from `element` at that root; no other entry changes, and roots
     * and the partition are untouched.
     */
    method Find(element: int) returns (r: int)
      requires Valid()
      requires 0 <= element < sets.Length
      modifies sets
      ensures r == Rep[element] && 0 <= r < sets.Length && sets[r] < 0
      ensures sets[..] == Compressed(old(sets[..]), Rep, Rank, MaxRank, element)
      ensures Valid() && Roots() == old(Roots())
      decreases MaxRank - Rank[element]
    {
      assert EntryOk(sets[..], Rep, Rank, MaxRank, element);
      if sets[element] < 0 {
        assert sets[..] == Compressed(sets[..], Rep, Rank, MaxRank, element);
        return element;
      }
      var parent := sets[element];
      assert EntryOk(sets[..], Rep, Rank, MaxRank, parent);
      ghost var path := PathOf(old(sets[..]), Rep, Rank, MaxRank, element);
      assert path == {element} + PathOf(old(sets[..]), Rep, Rank, MaxRank, parent);
      r := Find(parent);
      sets[element] := r;
      ghost var expected := Compressed(old(sets[..]), Rep, Rank, MaxRank, element);
      forall j | 0 <= j < sets.Length ensures sets[j] == expected[j] {
      }
      assert sets[..] == expected;
    }

    /**
     * Merges the sets of `first` and `second`. The root with the more negative
     * entry (the taller tree) becomes the parent; on a tie `first`'s root wins
     * and its entry is decremented. Returns false, and merges nothing, when both
     * already share a root. Apart from the link, the entries are those the two
     * calls of `Find` leave.
     */
    method Union(first: int, second: int) returns (merged: bool)
      requires Valid()
      requires 0 <= first < sets.Length && 0 <= second < sets.Length
      modifies this, sets
      ensures Valid() && sets == old(sets)
      ensures merged <==> old(Rep[first]) != old(Rep[second])
      ensures Joined(old(Rep), Rep, first, second)
      ensures !merged ==> Rep == old(Rep) && Roots() == old(Roots())
      ensures !merged ==> sets[..] == CompressedPair(old(sets[..]), old(Rep), old(Rank), old(MaxRank), first, second)
      ensures merged ==>
                var r1, r2 := old(Rep[first]), old(Rep[second]);
                var winner := Winner(old(sets[..]), r1, r2);
                var loser := if winner == r1 then r2 else r1;
                var tie := old(sets[r1]) == old(sets[r2]);
                && sets[..] == Linked(CompressedPair(old(sets[..]), old(Rep), old(Rank), old(MaxRank), first, second),
                                      winner, loser, tie)
                && sets[loser] == winner
                && sets[winner] == old(sets[winner]) - (if tie then 1 else 0)
                && Rep == Merge(old(Rep), winner, loser)
                && Roots() == old(Roots()) - {loser}
    {
      var firstRoot := Find(first);
      var secondRoot := Find(second);
      assert sets[..] == CompressedPair(old(sets[..]), Rep, Rank, MaxRank, first, second);
      if firstRoot != secondRoot {
        ghost var winner := Winner(sets[..], firstRoot, secondRoot);
        Link(firstRoot, secondRoot);
        MergeJoins(old(Rep), first, second, winner, if winner == firstRoot then secondRoot else firstRoot);
        return true;
      }
      return false;
    }

    /** The linking half of `Union`, applied to two distinct roots. */
    method Link(firstRoot: int, secondRoot: int)
      requires Valid()
      requires 0 <= firstRoot < sets.Length && 0 <= secondRoot < sets.Length && firstRoot != secondRoot
      requires sets[firstRoot] < 0 && sets[secondRoot] < 0
      modifies this, sets
      ensures Valid() && sets == old(sets)
      ensures var winner := Winner(old(sets[..]), firstRoot, secondRoot);
              var loser := if winner == firstRoot then secondRoot else firstRoot;
              && sets[..] == Linked(old(sets[..]), winner, loser, old(sets[firstRoot]) == old(sets[secondRoot]))
              && Rep == Merge(old(Rep), winner, loser)
              && Roots() == old(Roots()) - {loser}
    {
      ghost var s := sets[..];
      assert EntryOk(s, Rep, Rank, MaxRank, firstRoot) && EntryOk(s, Rep, Rank, MaxRank, secondRoot);
      ghost var tie := sets[firstRoot] == sets[secondRoot];
      ghost var winner := Winner(s, firstRoot, secondRoot);
      ghost var loser := if winner == firstRoot then secondRoot else firstRoot;
      LinkKeepsForest(s, Rep, Rank, MaxRank, winner, loser, tie);
      LinkRemovesLoser(s, winner, loser, tie);
      if sets[firstRoot] < sets[secondRoot] {
        sets[secondRoot] := firstRoot;
        assert sets[..] == Linked(s, firstRoot, secondRoot, false);
      } else if sets[secondRoot] < sets[firstRoot] {
        sets[firstRoot] := secondRoot;
        assert sets[..] == Linked(s, secondRoot, firstRoot, false);
      } else if sets[firstRoot] == sets[secondRoot] {
        // just pick one and increase the height of its tree
        sets[secondRoot] := firstRoot;
        sets[firstRoot] := sets[firstRoot] - 1;
        assert sets[..] == Linked(s, firstRoot, secondRoot, true);
      }
      // the winner's rank grows by one on a tie; every other rank stays
      Rank := if tie then Rank[winner := Rank[winner] + 1] else Rank;
      MaxRank := if MaxRank < Rank[winner] then Rank[winner] else MaxRank;
      Rep := Merge(Rep, winner, loser);
    }

    /** True iff both elements lie in one set; the entries are those the two calls of `Find` leave. */
    method SameSet(first: int, second: int) returns (same: bool)
      requires Valid()
      requires 0 <= first < sets.Length && 0 <= second < sets.Length
      modifies sets
      ensures Valid()
      ensures same <==> Rep[first] == Rep[second]
      ensures Roots() == old(Roots())
      ensures sets[..] == CompressedPair(old(sets[..]), Rep, Rank, MaxRank, first, second)
    {
      var firstRoot := Find(first);
      var secondRoot := Find(second);
      same := firstRoot == secondRoot;
    }
  }
}

=== FILE: disjoint_sets_scenarios.dfy ===
/**
 * The usage scenarios exercised against the union-find structure: finds on a
 * fresh structure, a find after two unions, and the partition left by a fixed
 * sequence of unions, each proved from the contracts of `DisjointSets`.
 */
module DisjointSetScenarios {
  import opened DisjointSetForest

  /** `labels` names the blocks of `rep`: equal labels exactly for equal roots. */
  ghost predicate Labels(rep: seq<int>, labels: seq<int>)
  {
    && |labels| == |rep|
    && forall x, y :: 0 <= x < |rep| && 0 <= y < |rep| ==> (rep[x] == rep[y] <==> labels[x] == labels[y])
  }

  /** Every occurrence of the label `from` renamed to `to`. */
  function Relabel(labels: seq<int>, from: int, to: int): (r: seq<int>)
    ensures |r| == |labels|
    ensures forall i :: 0 <= i < |labels| && labels[i] != from ==> r[i] == labels[i]
    ensures forall i :: 0 <= i < |labels| && labels[i] == from ==> r[i] == to
  {
    seq(|labels|, i requires 0 <= i < |labels| => if labels[i] == from then to else labels[i])
  }

  /** Joining the sets of `a` and `b` is renaming `b`'s block label to `a`'s. */
  lemma JoinedRelabels(rep: seq<int>, rep': seq<int>, labels: seq<int>, a: int, b: int)
    requires 0 <= a < |rep| && 0 <= b < |rep|
    requires Labels(rep, labels) && Joined(rep, rep', a, b)
    ensures Labels(rep', JoinLabels(labels, a, b))
  {
    var labels' := JoinLabels(labels, a, b);
    forall x, y | 0 <= x < |rep| && 0 <= y < |rep|
      ensures rep'[x] == rep'[y] <==> labels'[x] == labels'[y]
    {
      assert rep[x] == rep[a] <==> labels[x] == labels[a];
      assert rep[x] == rep[b] <==> labels[x] == labels[b];
      assert rep[y] == rep[a] <==> labels[y] == labels[a];
      assert rep[y] == rep[b] <==> labels[y] == labels[b];
      assert rep[x] == rep[y] <==> labels[x] == labels[y];
    }
  }

  /** On a fresh structure of `n` singletons, `find(i)` is `i` for every `i`. */
  method FindOnFresh(n: nat) returns (roots: seq<int>)
    ensures |roots| == n
    ensures forall i :: 0 <= i < n ==> roots[i] == i
  {
    var ds := new DisjointSets(n);
    roots := [];
    var i := 0;
    while i < n
      invariant 0 <= i <= n
      invariant ds.Valid() && ds.sets.Length == n
      invariant forall k :: 0 <= k < n ==> ds.Rep[k] == k
      invariant |roots| == i && forall k :: 0 <= k < i ==> roots[k] == k
      modifies ds.sets
    {
      var r := ds.Find(i);
      roots := roots + [r];
      i := i + 1;
    }
  }

  /**
   * `find(3)` on the chain 3 -> 2 -> 1 -> 0, with 4 also hanging under 1: every
   * entry on the path from 3 is re-pointed at the root 0, and entry 4, off the
   * path, keeps its parent 1.
   */
  lemma FindCompressesPathOnly()
    ensures Forest([-4, 0, 1, 2, 1], [0, 0, 0, 0, 0], [3, 2, 1, 0, 1], 3)
    ensures Compressed([-4, 0, 1, 2, 1], [0, 0, 0, 0, 0], [3, 2, 1, 0, 1], 3, 3) == [-4, 0, 0, 0, 1]
  {
    var s, rep, rank := [-4, 0, 1, 2, 1], [0, 0, 0, 0, 0], [3, 2, 1, 0, 1];
    forall i | 0 <= i < 5 ensures EntryOk(s, rep, rank, 3, i) {
    }
    assert PathOf(s, rep, rank, 3, 0) == {0};
    assert PathOf(s, rep, rank, 3, 1) == {1, 0};
    assert PathOf(s, rep, rank, 3, 2) == {2, 1, 0};
    assert PathOf(s, rep, rank, 3, 3) == {3, 2, 1, 0};
  }

  /**
   * `union(0,1); union(0,2)` on ten singletons, then `find(2)`: the first union is
   * a tie won by 0, the second is won by the taller tree at 0, so the root is 0
   * (one of the two answers 0 or 1 the tests accept).
   */
  method FindAfterTwoUnions() returns (r: int)
    ensures r == 0
  {
    var ds := new DisjointSets(10);
    var merged := ds.Union(0, 1);
    assert ds.sets[0] == -2 && ds.sets[2] == -1;
    merged := ds.Union(0, 2);
    r := ds.Find(2);
  }

  /** The blocks the test sequence of unions should leave: {0,1,2,3}, {4,5}, {6,8,9}, {7}. */
  function Block(i: int): int
  {
    if 0 <= i <= 3 then 0 else if 4 <= i <= 5 then 4 else if i == 7 then 7 else 6
  }

  /** The block labels after joining the blocks of `a` and `b`. */
  function JoinLabels(labels: seq<int>, a: int, b: int): seq<int>
    requires 0 <= a < |labels| && 0 <= b < |labels|
  {
    Relabel(labels, labels[b], labels[a])
  }

  /** The block labels the test sequence of unions leaves, starting from ten singletons. */
  function TestLabels(): (labels: seq<int>)
    ensures |labels| == 10
  {
    var l0 := seq(10, i => i);
    var l1 := JoinLabels(l0, 0, 1);
    var l2 := JoinLabels(l1, 0, 2);
    var l3 := JoinLabels(l2, 2, 3);
    var l4 := JoinLabels(l3, 4, 5);
    var l5 := JoinLabels(l4, 8, 6);
    JoinLabels(l5, 9, 6)
  }

  lemma TestLabelsValue()
    ensures TestLabels() == [0, 0, 0, 0, 4, 4, 9, 7, 9, 9]
  {
    var l0 := seq(10, i => i);
    assert l0 == [0, 1, 2, 3, 4, 5, 6, 7, 8, 9];
    var l1 := JoinLabels(l0, 0, 1);
    assert l1 == [0, 0, 2, 3, 4, 5, 6, 7, 8, 9];
    var l2 := JoinLabels(l1, 0, 2);
    assert l2 == [0, 0, 0, 3, 4, 5, 6, 7, 8, 9];
    var l3 := JoinLabels(l2, 2, 3);
    assert l3 == [0, 0, 0, 0, 4, 5, 6, 7, 8, 9];
    var l4 := JoinLabels(l3, 4, 5);
    assert l4 == [0, 0, 0, 0, 4, 4, 6, 7, 8, 9];
    var l5 := JoinLabels(l4, 8, 6);
    assert l5 == [0, 0, 0, 0, 4, 4, 8, 7, 8, 9];
  }

  /**
   * Applies `union(0,1)`, `union(0,2)`, `union(2,3)`, `union(4,5)`, `union(8,6)` and
   * `union(9,6)` to ten singletons; the blocks left are {0,1,2,3}, {4,5}, {6,8,9} and {7}.
   */
  method ApplyTestUnions() returns (ds: DisjointSets)
    ensures fresh(ds) && fresh(ds.sets)
    ensures ds.Valid() && ds.sets.Length == 10 && Labels(ds.Rep, [0, 0, 0, 0, 4, 4, 9, 7, 9, 9])
  {
    ds := new DisjointSets(10);
    ghost var labels := seq(10, i => i);
    assert Labels(ds.Rep, labels);
    ghost var rep := ds.Rep;
    var merged := ds.Union(0, 1);
    JoinedRelabels(rep, ds.Rep, labels, 0, 1);
    labels, rep := JoinLabels(labels, 0, 1), ds.Rep;
    merged := ds.Union(0, 2);
    JoinedRelabels(rep, ds.Rep, labels, 0, 2);
    labels, rep := JoinLabels(labels, 0, 2), ds.Rep;
    merged := ds.Union(2, 3);
    JoinedRelabels(rep, ds.Rep, labels, 2, 3);
    labels, rep := JoinLabels(labels, 2, 3), ds.Rep;
    merged := ds.Union(4, 5);
    JoinedRelabels(rep, ds.Rep, labels, 4, 5);
    labels, rep := JoinLabels(labels, 4, 5), ds.Rep;
    merged := ds.Union(8, 6);
    JoinedRelabels(rep, ds.Rep, labels, 8, 6);
    labels, rep := JoinLabels(labels, 8, 6), ds.Rep;
    merged := ds.Union(9, 6);
    JoinedRelabels(rep, ds.Rep, labels, 9, 6);
    TestLabelsValue();
  }

  /**
   * After the test sequence of unions, `sameSet` is true exactly for pairs in one
   * block of {0,1,2,3}, {4,5}, {6,8,9}, {7}.
   */
  method PartitionAfterUnions() returns (same: seq<seq<bool>>)
    ensures |same| == 10
    ensures forall i :: 0 <= i < 10 ==> |same[i]| == 10
    ensures forall i, j :: 0 <= i < 10 && 0 <= j < 10 ==> (same[i][j] <==> Block(i) == Block(j))
  {
    var ds := ApplyTestUnions();
    ghost var labels := [0, 0, 0, 0, 4, 4, 9, 7, 9, 9];
    assert forall i :: 0 <= i < 10 ==> labels[i] == Block(i) + (if 6 <= i && i != 7 then 3 else 0);

    same := [];
    var i := 0;
    while i < 10
      invariant 0 <= i <= 10
      invariant ds.Valid() && ds.sets.Length == 10 && Labels(ds.Rep, labels)
      invariant |same| == i
      invariant forall k :: 0 <= k < i ==> |same[k]| == 10
      invariant forall k, j :: 0 <= k < i && 0 <= j < 10 ==> (same[k][j] <==> labels[k] == labels[j])
      modifies ds.sets
    {
      var row := [];
      var j := 0;
      while j < 10
        invariant 0 <= j <= 10
        invariant ds.Valid() && ds.sets.Length == 10 && Labels(ds.Rep, labels)
        invariant |row| == j
        invariant forall k :: 0 <= k < j ==> (row[k] <==> labels[i] == labels[k])
        modifies ds.sets
      {
        var s := ds.SameSet(i, j);
        row := row + [s];
        j := j + 1;
      }
      same := same + [row];
      i := i + 1;
    }
  }
}

=== FILE: maze_generator.dfy ===
/**
 * Maze generation on a grid of `rows` x `cols` cells numbered row by row: the
 * neighbour of a cell through one of its walls, and the step that draws a cell
 * and a wall, and knocks that wall down when the cells on its two sides are not
 * yet connected, joining their sets and adding the passage to the graph.
 */
module MazeGenerator {
  import opened DisjointSetForest
  import opened Adjacency
  import opened Cells
  import opened Graph

  /** Java's `%` for a positive divisor: the remainder takes the sign of the dividend. */
  function JavaRem(a: int, b: int): (r: int)
    requires b > 0
    ensures a >= 0 ==> r == a % b
    ensures a < 0 ==> -b < r <= 0 && (a - r) % b == 0
  {
    if a >= 0 then a % b
    else
      var q := (-a) / b;
      DivModUnique(a + (-a) % b, b, -q, 0);
      -((-a) % b)
  }

  /**
   * The cell on the other side of wall `wall` (0 north, 1 east, 2 south, 3 west)
   * of `cell`, or -1 when that wall is on the border of the grid.
   */
  function Neighbor(cols: int, cellCount: int, cell: int, wall: int): (n: int)
    requires cols > 0
    ensures n == -1 || n == cell - cols || n == cell + 1 || n == cell + cols || n == cell - 1
  {
    if wall == Cell.NORTH then
      (if cell - cols < 0 then -1 else cell - cols)
    else if wall == Cell.EAST then
      (if JavaRem(cell + 1, cols) == 0 then -1 else cell + 1)
    else if wall == Cell.SOUTH then
      (if cell + cols >= cellCount then -1 else cell + cols)
    else if wall == Cell.WEST then
      (if JavaRem(cell, cols) == 0 then -1 else cell - 1)
    else
      -1
  }

  /** The wall on the opposite side of a passage. */
  function Opposite(wall: int): (o: int)
    requires 0 <= wall < 4
    ensures 0 <= o < 4 && o != wall && (o + 2) % 4 == wall
  {
    (wall + 2) % 4
  }

  /** Division by a positive number has one quotient and one remainder. */
  lemma DivModUnique(a: int, b: int, q: int, r: int)
    requires b > 0 && 0 <= r < b && a == q * b + r
    ensures a / b == q && a % b == r
  {
    var q', r' := a / b, a % b;
    assert (q - q') * b == r' - r;
    if q > q' {
      MulMono(1, q - q', b);
      assert false;
    } else if q < q' {
      MulMono(1, q' - q, b);
      assert false;
    }
  }

  lemma MulMono(a: int, b: int, c: int)
    requires a <= b && c >= 0
    ensures a * c <= b * c
  {
  }

  /**
   * Reference definition: for the cell in row `row` and column `col`, the
   * neighbour through each wall is the cell one row up, one column right, one
   * row down or one column left, when that stays inside the grid.
   */
  lemma NeighborOnGrid(rows: int, cols: int, row: int, col: int, wall: int)
    requires cols > 0 && 0 <= row < rows && 0 <= col < cols
    ensures Neighbor(cols, rows * cols, row * cols + col, wall) ==
              if wall == Cell.NORTH then (if row > 0 then (row - 1) * cols + col else -1)
              else if wall == Cell.EAST then (if col < cols - 1 then row * cols + col + 1 else -1)
              else if wall == Cell.SOUTH then (if row < rows - 1 then (row + 1) * cols + col else -1)
              else if wall == Cell.WEST then (if col > 0 then row * cols + col - 1 else -1)
              else -1
  {
    if wall == Cell.NORTH {
      NorthOnGrid(cols, row, col, rows * cols);
    } else if wall == Cell.EAST {
      EastOnGrid(cols, row, col, rows * cols);
    } else if wall == Cell.SOUTH {
      SouthOnGrid(rows, cols, row, col);
    } else if wall == Cell.WEST {
      WestOnGrid(cols, row, col, rows * cols);
    }
  }

  lemma NorthOnGrid(cols: int, row: int, col: int, cellCount: int)
    requires cols > 0 && 0 <= row && 0 <= col < cols
    ensures Neighbor(cols, cellCount, row * cols + col, Cell.NORTH) == if row > 0 then (row - 1) * cols + col else -1
  {
    assert (row - 1) * cols == row * cols - cols;
    if row > 0 {
      MulMono(1, row, cols);
    } else {
      assert row * cols == 0;
    }
  }

  lemma EastOnGrid(cols: int, row: int, col: int, cellCount: int)
    requires cols > 0 && 0 <= row && 0 <= col < cols
    ensures Neighbor(cols, cellCount, row * cols + col, Cell.EAST) == if col < cols - 1 then row * cols + col + 1 else -1
  {
    MulMono(0, row, cols);
    if col < cols - 1 {
      DivModUnique(row * cols + col + 1, cols, row, col + 1);
    } else {
      assert (row + 1) * cols == row * cols + cols;
      DivModUnique(row * cols + col + 1, cols, row + 1, 0);
    }
  }

  lemma SouthOnGrid(rows: int, cols: int, row: int, col: int)
    requires cols > 0 && 0 <= row < rows && 0 <= col < cols
    ensures Neighbor(cols, rows * cols, row * cols + col, Cell.SOUTH) ==
              if row < rows - 1 then (row + 1) * cols + col else -1
  {
    assert (row + 1) * cols == row * cols + cols;
    if row < rows - 1 {
      MulMono(row + 1, rows - 1, cols);
      assert (rows - 1) * cols == rows * cols - cols;
    } else {
      assert row + 1 == rows;
    }
  }

  lemma WestOnGrid(cols: int, row: int, col: int, cellCount: int)
    requires cols > 0 && 0 <= row && 0 <= col < cols
    ensures Neighbor(cols, cellCount, row * cols + col, Cell.WEST) == if col > 0 then row * cols + col - 1 else -1
  {
    MulMono(0, row, cols);
    DivModUnique(row * cols + col, cols, row, col);
  }

  /** On a grid of whole rows, a neighbour is another cell of the grid. */
  lemma NeighborInRange(cols: int, cellCount: int, cell: int, wall: int)
    requires cols > 0 && cellCount % cols == 0 && 0 <= cell < cellCount
    ensures var n := Neighbor(cols, cellCount, cell, wall);
            n == -1 || (0 <= n < cellCount && n != cell)
  {
    if wall == Cell.EAST && (cell + 1) % cols != 0 {
      assert cell + 1 != cellCount;
    }
  }

  /** Passing back through the opposite wall returns to the cell. */
  lemma NeighborInverse(cols: int, cellCount: int, cell: int, wall: int)
    requires cols > 0 && 0 <= cell < cellCount && 0 <= wall < 4
    requires Neighbor(cols, cellCount, cell, wall) != -1
    ensures Neighbor(cols, cellCount, Neighbor(cols, cellCount, cell, wall), Opposite(wall)) == cell
  {
  }

  /** The row count times the column count is a whole number of rows. */
  lemma WholeRows(rows: int, cols: int)
    requires rows >= 0 && cols > 0
    ensures (rows * cols) % cols == 0
  {
    DivModUnique(rows * cols, cols, rows, 0);
  }

  /**
   * With at least two columns, a passage knocked through wall `wall` is drawn as
   * an open door `wall` on the cell and the opposite door on its neighbour.
   */
  lemma NeighborDoors(cols: int, cellCount: int, cell: int, wall: int)
    requires cols >= 2 && 0 <= cell && 0 <= wall < 4
    requires Neighbor(cols, cellCount, cell, wall) != -1
    ensures var n := Neighbor(cols, cellCount, cell, wall);
            WallOf(cell - n) == wall && WallOf(n - cell) == Opposite(wall)
  {
  }

  /**
   * With a single column the index difference of a vertical passage is 1, so
   * it is drawn on the west and east walls instead of north and south.
   */
  lemma SingleColumnDoors(cellCount: int, cell: int, wall: int)
    requires 0 <= cell && 0 <= wall < 4
    requires Neighbor(1, cellCount, cell, wall) != -1
    ensures wall == Cell.NORTH || wall == Cell.SOUTH
    ensures var n := Neighbor(1, cellCount, cell, wall);
            WallOf(cell - n) == (if wall == Cell.NORTH then Cell.WEST else Cell.EAST) &&
            WallOf(n - cell) == (if wall == Cell.NORTH then Cell.EAST else Cell.WEST)
  {
  }

  /**
   * Once the passage through wall `wall` of `cell` is in the graph, the wall
   * descriptors derived from the lists have that door open on both sides.
   */
  lemma PassageOpensDoors(adj: map<int, seq<int>>, cols: int, cellCount: int, cell: int, wall: int)
    requires Symmetric(adj) && cols >= 2 && 0 <= cell && 0 <= wall < 4
    requires Neighbor(cols, cellCount, cell, wall) != -1
    requires Neighbor(cols, cellCount, cell, wall) in Neighbors(adj, cell)
    ensures var n := Neighbor(cols, cellCount, cell, wall);
            !DoorsFor(cell, Neighbors(adj, cell))[wall] && !DoorsFor(n, Neighbors(adj, n))[Opposite(wall)]
  {
    var n := Neighbor(cols, cellCount, cell, wall);
    NeighborDoors(cols, cellCount, cell, wall);
    var l := Neighbors(adj, cell);
    var i :| 0 <= i < |l| && l[i] == n;
    DoorsForOpen(cell, l, wall);
    assert cell in Neighbors(adj, n);
    var l' := Neighbors(adj, n);
    var i' :| 0 <= i' < |l'| && l'[i'] == cell;
    DoorsForOpen(n, l', Opposite(wall));
  }

  /**
   * The state generation keeps, over `cellCount` cells, in terms of the
   * partition `rep`, its roots and the lists: the cells are exactly the
   * vertices, no list repeats a vertex, there is one edge fewer than cells per
   * set (so the graph is a forest), and two cells share a set exactly when a
   * passage route joins them.
   */
  ghost predicate Spanning(cellCount: int, rep: seq<int>, roots: set<int>, adj: map<int, seq<int>>, edgeCount: int)
  {
    && |rep| == cellCount
    && (forall v :: v in adj <==> 0 <= v < cellCount)
    && NoDuplicates(adj)
    && edgeCount + |roots| == cellCount
    && forall x, y :: 0 <= x < cellCount && 0 <= y < cellCount ==> (rep[x] == rep[y] <==> Reachable(adj, x, y))
  }

  /** `Spanning` of the union-find structure and the graph, both well formed. */
  ghost predicate MazeInv(cellCount: int, sets: DisjointSets, graph: MazeGraph)
    reads sets, sets.sets, graph
  {
    && sets.Valid() && graph.Valid() && sets.sets.Length == cellCount
    && Spanning(cellCount, sets.Rep, sets.Roots(), graph.adjacencyLists, graph.edgeCount)
  }

  /** A set of one element holds nothing else. */
  lemma OneElement(s: set<int>, a: int, b: int)
    requires |s| == 1 && a in s && b in s
    ensures a == b
  {
    assert |s - {a}| == 0;
    assert s - {a} == {};
  }

  /** A set holding exactly 0 .. n-1 has n elements. */
  lemma {:induction false} RangeCard(s: set<int>, n: nat)
    requires forall i :: i in s <==> 0 <= i < n
    ensures |s| == n
  {
    if n > 0 {
      RangeCard(s - {n - 1}, n - 1);
    } else {
      assert forall i :: i !in s;
      assert s == {};
    }
  }

  /** With every list empty, the only walks stay at one vertex. */
  lemma ReachableInEmpty(adj: map<int, seq<int>>, x: int, y: int)
    requires forall v :: v in adj ==> adj[v] == []
    ensures Reachable(adj, x, y) <==> x == y
  {
    if Reachable(adj, x, y) {
      assert Neighbors(adj, x) == [];
      assert Closed(adj, {x});
      ClosedContainsReachable(adj, {x}, x, y);
    } else {
      ReachableRefl(adj, x);
    }
  }

  /** The start of generation: `cellCount` singleton sets and a graph without edges. */
  method NewMaze(rows: int, cols: int) returns (sets: DisjointSets, graph: MazeGraph)
    requires rows >= 0 && cols > 0
    ensures fresh(sets) && fresh(sets.sets) && fresh(graph)
    ensures MazeInv(rows * cols, sets, graph) && graph.edgeCount == 0
  {
    var cellCount := rows * cols;
    MulMono(0, rows, cols);
    sets := new DisjointSets(cellCount);
    graph := new MazeGraph(cellCount);
    RangeCard(sets.Roots(), cellCount);
    forall x, y | 0 <= x < cellCount && 0 <= y < cellCount
      ensures sets.Rep[x] == sets.Rep[y] <==> Reachable(graph.adjacencyLists, x, y)
    {
      ReachableInEmpty(graph.adjacencyLists, x, y);
    }
  }

  /**
   * Joining the sets of `c` and `n` while adding the passage `c`-`n` keeps
   * "same set" and "joined by a route" the same relation.
   */
  lemma JoinKeepsConnectivity(cellCount: int, rep: seq<int>, rep': seq<int>,
                              adj: map<int, seq<int>>, c: int, n: int)
    requires |rep| == cellCount && 0 <= c < cellCount && 0 <= n < cellCount
    requires forall x, y :: 0 <= x < cellCount && 0 <= y < cellCount ==>
               (rep[x] == rep[y] <==> Reachable(adj, x, y))
    requires Joined(rep, rep', c, n)
    ensures forall x, y :: 0 <= x < cellCount && 0 <= y < cellCount ==>
              (rep'[x] == rep'[y] <==> Reachable(WithEdge(adj, c, n), x, y))
  {
    forall x, y | 0 <= x < cellCount && 0 <= y < cellCount
      ensures rep'[x] == rep'[y] <==> Reachable(WithEdge(adj, c, n), x, y)
    {
      ReachableWithEdge(adj, c, n, x, y);
      assert Reachable(adj, x, c) <==> rep[x] == rep[c];
      assert Reachable(adj, n, y) <==> rep[n] == rep[y];
      assert Reachable(adj, x, n) <==> rep[x] == rep[n];
      assert Reachable(adj, c, y) <==> rep[c] == rep[y];
    }
  }

  /** A neighbour in the list is reachable in one step. */
  lemma NeighborReachable(adj: map<int, seq<int>>, x: int, y: int)
    requires y in Neighbors(adj, x)
    ensures Reachable(adj, x, y)
  {
    ReachableRefl(adj, x);
    ReachableStep(adj, x, x, y);
  }

  /**
   * Joining the sets of two unconnected cells `c` and `n`, with one of their
   * roots leaving the roots, while the passage `c`-`n` is added, keeps `Spanning`.
   */
  lemma JoinStep(cellCount: int, rep: seq<int>, roots: set<int>, adj: map<int, seq<int>>, edgeCount: int,
                 rep': seq<int>, roots': set<int>, c: int, n: int)
    requires Spanning(cellCount, rep, roots, adj, edgeCount) && Symmetric(adj)
    requires 0 <= c < cellCount && 0 <= n < cellCount && rep[c] != rep[n]
    requires rep[c] in roots && rep[n] in roots
    requires roots' == roots - {rep[c]} || roots' == roots - {rep[n]}
    requires Joined(rep, rep', c, n)
    ensures n !in Neighbors(adj, c) && !Reachable(adj, c, n) && |roots'| == |roots| - 1
    ensures Spanning(cellCount, rep', roots', WithEdge(adj, c, n), edgeCount + 1)
  {
    if n in Neighbors(adj, c) {
      NeighborReachable(adj, c, n);
    }
    assert c !in Neighbors(adj, n);
    WithEdgeNoDuplicates(adj, c, n);
    JoinKeepsConnectivity(cellCount, rep, rep', adj, c, n);
  }

  /**
   * The effect of a successful round: the sets of two unconnected cells `c` and
   * `n` are joined and the passage `c`-`n` is stored in the graph.
   */
  method JoinCells(cellCount: int, sets: DisjointSets, graph: MazeGraph, c: int, n: int)
    requires MazeInv(cellCount, sets, graph)
    requires 0 <= c < cellCount && 0 <= n < cellCount && sets.Rep[c] != sets.Rep[n]
    modifies sets, sets.sets, graph
    ensures MazeInv(cellCount, sets, graph) && sets.sets == old(sets.sets)
    ensures !old(Reachable(graph.adjacencyLists, c, n))
    ensures graph.adjacencyLists == WithEdge(old(graph.adjacencyLists), c, n)
    ensures graph.edgeCount == old(graph.edgeCount) + 1
    ensures |sets.Roots()| == old(|sets.Roots()|) - 1
  {
    ghost var adj, rep, roots := graph.adjacencyLists, sets.Rep, sets.Roots();
    RepIsRoot(sets, c);
    RepIsRoot(sets, n);
    var merged := sets.Union(c, n);
    assert sets.Roots() == roots - {rep[c]} || sets.Roots() == roots - {rep[n]};
    JoinStep(cellCount, rep, roots, adj, graph.edgeCount, sets.Rep, sets.Roots(), c, n);
    graph.AddEdge(c, n);
  }

  /**
   * One round of the generation loop with the draws `nextCell` (a cell) and
   * `wall` (a direction) given. When the drawn wall has a cell behind it that is
   * not yet connected to `nextCell`, the two sets are joined and the passage is
   * added: one edge more and one set fewer. Otherwise the partition and the
   * graph stay as they were (the sets may only have paths compressed).
   */
  method GenerationStep(rows: int, cols: int, sets: DisjointSets, graph: MazeGraph, nextCell: int, wall: int)
    requires rows >= 0 && cols > 0 && 0 <= nextCell < rows * cols && 0 <= wall < 4
    requires MazeInv(rows * cols, sets, graph)
    modifies sets, sets.sets, graph
    ensures MazeInv(rows * cols, sets, graph) && sets.sets == old(sets.sets)
    ensures var n := Neighbor(cols, rows * cols, nextCell, wall);
            if n != -1 && !old(Reachable(graph.adjacencyLists, nextCell, n)) then
              && graph.adjacencyLists == WithEdge(old(graph.adjacencyLists), nextCell, n)
              && graph.edgeCount == old(graph.edgeCount) + 1
              && |sets.Roots()| == old(|sets.Roots()|) - 1
            else
              && graph.adjacencyLists == old(graph.adjacencyLists)
              && graph.edgeCount == old(graph.edgeCount)
              && sets.Rep == old(sets.Rep)
  {
    var cellCount := rows * cols;
    WholeRows(rows, cols);
    var neighbor := Neighbor(cols, cellCount, nextCell, wall);
    NeighborInRange(cols, cellCount, nextCell, wall);
    if neighbor != -1 {
      var same := sets.SameSet(nextCell, neighbor);
      if !same {
        JoinCells(cellCount, sets, graph, nextCell, neighbor);
      } else {
        assert Reachable(graph.adjacencyLists, nextCell, neighbor);
      }
    }
  }

  /** Every cell's representative is one of the roots. */
  lemma RepIsRoot(sets: DisjointSets, x: int)
    requires sets.Valid() && 0 <= x < sets.sets.Length
    ensures sets.Rep[x] in sets.Roots()
  {
    assert EntryOk(sets.sets[..], sets.Rep, sets.Rank, sets.MaxRank, x);
  }

  /** While the count identity holds on a non-empty grid, there are at most `cellCount - 1` edges. */
  lemma EdgeBound(cellCount: int, sets: DisjointSets, graph: MazeGraph)
    requires cellCount >= 1 && MazeInv(cellCount, sets, graph)
    ensures graph.edgeCount <= cellCount - 1
  {
    RepIsRoot(sets, 0);
  }

  /**
   * When generation stops on a non-empty grid (`cellCount - 1` edges), one set
   * is left: every cell is joined to every other by a route, in particular the
   * last cell to cell 0, so `Dfs` returns a route and `Bfs` reaches the last cell.
   */
  lemma CompleteMazeConnected(cellCount: int, sets: DisjointSets, graph: MazeGraph)
    requires cellCount >= 1 && MazeInv(cellCount, sets, graph)
    requires graph.edgeCount == cellCount - 1
    ensures forall x, y :: 0 <= x < cellCount && 0 <= y < cellCount ==>
              Reachable(graph.adjacencyLists, x, y)
    ensures |graph.adjacencyLists| == cellCount && graph.edgeCount >= |graph.adjacencyLists| - 1
    ensures Reachable(graph.adjacencyLists, MazeGraph.SOURCE, |graph.adjacencyLists| - 1)
  {
    var roots := sets.Roots();
    assert |roots| == 1;
    RepIsRoot(sets, 0);
    forall x | 0 <= x < cellCount ensures sets.Rep[x] == sets.Rep[0] {
      RepIsRoot(sets, x);
      OneElement(roots, sets.Rep[x], sets.Rep[0]);
    }
    RangeCard(graph.adjacencyLists.Keys, cellCount);
  }

  /**
   * The generation loop: from singleton sets and an empty graph, run
   * `GenerationStep` on successive draws while there are fewer than
   * `cellCount - 1` edges. `consumed` draws are used; the loop stops early only
   * once the maze is complete.
   */
  method GenerateMaze(rows: int, cols: int, draws: seq<(int, int)>)
    returns (sets: DisjointSets, graph: MazeGraph, consumed: int)
    requires rows >= 0 && cols > 0
    requires forall i :: 0 <= i < |draws| ==> 0 <= draws[i].0 < rows * cols && 0 <= draws[i].1 < 4
    ensures MazeInv(rows * cols, sets, graph)
    ensures 0 <= consumed <= |draws|
    ensures consumed < |draws| ==> graph.edgeCount >= rows * cols - 1
    ensures rows * cols >= 1 ==> graph.edgeCount <= rows * cols - 1
  {
    sets, graph := NewMaze(rows, cols);
    consumed := 0;
    var count := graph.GetEdgeCount();
    while count < rows * cols - 1 && consumed < |draws|
      invariant 0 <= consumed <= |draws|
      invariant MazeInv(rows * cols, sets, graph) && count == graph.edgeCount
      invariant fresh(sets) && fresh(sets.sets) && fresh(graph)
    {
      GenerationStep(rows, cols, sets, graph, draws[consumed].0, draws[consumed].1);
      consumed := consumed + 1;
      count := graph.GetEdgeCount();
    }
    if rows * cols >= 1 {
      EdgeBound(rows * cols, sets, graph);
    }
  }
}

=== FILE: maze_graph.dfy ===
/**
 * The passage graph of a maze: one adjacency list per cell (new neighbours are
 * put at the head) and a count of undirected edges. It derives the wall
 * descriptor of every cell and finds the route from cell 0 to the last cell by
 * depth-first or breadth-first search.
 */
module Graph {
  import opened Wrappers
  import opened Adjacency
  import opened Cells

  /** Which wall of cell `key` a passage to cell `key - diff` opens, judged only by `diff`. */
  function WallOf(diff: int): (d: int)
    ensures 0 <= d < 4
    ensures d == Cell.EAST <==> diff == -1
    ensures d == Cell.SOUTH <==> diff < -1
    ensures d == Cell.WEST <==> diff == 1
    ensures d == Cell.NORTH <==> diff >= 0 && diff != 1
  {
    if diff < 0 then
      if diff == -1 then Cell.EAST else Cell.SOUTH
    else
      if diff == 1 then Cell.WEST else Cell.NORTH
  }

  /** The door slots of cell `key` once the passages to the first `|nbrs|` neighbours are opened in order. */
  function DoorsFor(key: int, nbrs: seq<int>): (doors: seq<bool>)
    ensures |doors| == 4
  {
    if nbrs == [] then [true, true, true, true]
    else DoorsFor(key, nbrs[..|nbrs| - 1])[WallOf(key - nbrs[|nbrs| - 1]) := false]
  }

  /** A slot of `DoorsFor` is open exactly when some neighbour lies in that direction. */
  lemma {:induction false} DoorsForOpen(key: int, nbrs: seq<int>, d: int)
    requires 0 <= d < 4
    ensures !DoorsFor(key, nbrs)[d] <==> exists i :: 0 <= i < |nbrs| && WallOf(key - nbrs[i]) == d
    decreases |nbrs|
  {
    if nbrs != [] {
      var init := nbrs[..|nbrs| - 1];
      DoorsForOpen(key, init, d);
      if exists i :: 0 <= i < |init| && WallOf(key - init[i]) == d {
        var i :| 0 <= i < |init| && WallOf(key - init[i]) == d;
        assert nbrs[i] == init[i];
      }
      if exists i :: 0 <= i < |nbrs| && WallOf(key - nbrs[i]) == d {
        var i :| 0 <= i < |nbrs| && WallOf(key - nbrs[i]) == d;
        if i < |init| {
          assert init[i] == nbrs[i];
        }
      }
    }
  }

  /**
   * `p`, read from the target `p[0]` back to `start`, is a path without repeats
   * whose every vertex but the target lies in `added`.
   */
  ghost predicate BackPath(adj: map<int, seq<int>>, p: seq<int>, target: int, start: int, added: set<int>)
  {
    && |p| > 0 && p[0] == target && p[|p| - 1] == start
    && (forall i :: 0 <= i < |p| - 1 ==> p[i] in Neighbors(adj, p[i + 1]))
    && DuplicateFree(p)
    && (forall i :: 1 <= i < |p| ==> p[i] in added)
  }

  /** A route as `dfs` reports it: from `target` to 0, each step a passage, no vertex twice. */
  ghost predicate Route(adj: map<int, seq<int>>, p: seq<int>, target: int)
  {
    IsWalk(adj, p) && p[0] == target && p[|p| - 1] == 0 && DuplicateFree(p)
  }

  /** Every vertex a list names has a list of its own (it lists the vertex back). */
  lemma NeighborIsKey(adj: map<int, seq<int>>, v: int, u: int)
    requires Symmetric(adj) && u in Neighbors(adj, v)
    ensures u in adj
  {
    assert v in Neighbors(adj, u);
  }

  lemma CardRemove(u: set<int>, visited: set<int>, c: int)
    requires c in u && c !in visited
    ensures |u - (visited + {c})| == |u - visited| - 1
  {
    assert u - (visited + {c}) == (u - visited) - {c};
  }

  /** Extending a path back from the target by the vertex that listed its start. */
  lemma ExtendBackPath(adj: map<int, seq<int>>, p: seq<int>, target: int, next: int, current: int,
                       added: set<int>, added': set<int>)
    requires BackPath(adj, p, target, next, added)
    requires next in Neighbors(adj, current) && current != target && current !in added
    requires added <= added' && current in added'
    ensures BackPath(adj, p + [current], target, current, added')
  {
    var q := p + [current];
    forall i, j | 0 <= i < j < |q| ensures q[i] != q[j] {
      if j == |q| - 1 && i > 0 {
        assert q[i] == p[i] && p[i] in added;
      }
    }
  }

  /** A closed set holding 0 but not `target`: no route from 0 reaches `target`. */
  lemma ClosedSeparates(adj: map<int, seq<int>>, s: set<int>, target: int)
    requires Closed(adj, s) && 0 in s && target !in s
    ensures !Reachable(adj, 0, target)
  {
    if Reachable(adj, 0, target) {
      ClosedContainsReachable(adj, s, 0, target);
    }
  }

  /** In a symmetric graph a path read back from the target is a walk in that direction too. */
  lemma BackPathIsRoute(adj: map<int, seq<int>>, p: seq<int>, target: int, added: set<int>)
    requires Symmetric(adj) && BackPath(adj, p, target, 0, added)
    ensures Route(adj, p, target) && Reachable(adj, 0, target)
  {
    forall i | 0 <= i < |p| - 1 ensures p[i + 1] in Neighbors(adj, p[i]) {
      assert p[i] in Neighbors(adj, p[i + 1]);
    }
    assert IsWalk(adj, p);
    ReachableSymmetric(adj, target, 0);
  }

  /** The reverse of a walk from 0 to `target` without repeats is a route from `target` to 0. */
  lemma ReversedWalkIsRoute(adj: map<int, seq<int>>, w: seq<int>, target: int)
    requires Symmetric(adj) && IsWalk(adj, w) && w[0] == 0 && w[|w| - 1] == target && DuplicateFree(w)
    ensures Route(adj, Reverse(w), target) && Reachable(adj, 0, target)
  {
    var r := Reverse(w);
    forall i | 0 <= i < |r| - 1 ensures r[i + 1] in Neighbors(adj, r[i]) {
      var k := |w| - 2 - i;
      assert w[k + 1] in Neighbors(adj, w[k]);
    }
    assert IsWalk(adj, r);
    forall i, j | 0 <= i < j < |r| ensures r[i] != r[j] {
      assert r[i] == w[|w| - 1 - i] && r[j] == w[|w| - 1 - j];
    }
  }

  /** The position of the first entry of `list` not in `visited`, or `|list|` when there is none. */
  method FirstUnvisited(list: seq<int>, visited: set<int>) returns (j: int)
    ensures 0 <= j <= |list|
    ensures forall i :: 0 <= i < j ==> list[i] in visited
    ensures j < |list| ==> list[j] !in visited
  {
    j := 0;
    while j < |list| && list[j] in visited
      invariant 0 <= j <= |list|
      invariant forall i :: 0 <= i < j ==> list[i] in visited
    {
      j := j + 1;
    }
  }

  /**
   * The loop state of the iterative search: `traversal` (the stack, bottom
   * first) is a path from 0 through visited vertices; `current` is either a
   * fresh vertex next to the top or the top itself; and every visited vertex
   * off the stack has all its neighbours visited.
   */
  ghost predicate StackInv(adj: map<int, seq<int>>, all: set<int>, target: int,
                           traversal: seq<int>, visited: set<int>, current: int)
  {
    && visited <= all && current in all && target !in visited
    && (forall i :: 0 <= i < |traversal| ==> traversal[i] in visited)
    && DuplicateFree(traversal)
    && (forall i :: 0 <= i < |traversal| - 1 ==> traversal[i + 1] in Neighbors(adj, traversal[i]))
    && (traversal != [] ==> traversal[0] == 0)
    && (visited != {} ==> 0 in visited)
    && (current !in visited && traversal == [] ==> current == 0 && visited == {})
    && (current !in visited && traversal != [] ==> current in Neighbors(adj, traversal[|traversal| - 1]))
    && (current in visited ==> traversal != [] && current == traversal[|traversal| - 1])
    && (forall v :: v in visited && v !in traversal ==> forall u :: u in Neighbors(adj, v) ==> u in visited)
  }

  /** Visiting `current` pushes it on the stack. */
  lemma VisitStep(adj: map<int, seq<int>>, all: set<int>, target: int,
                  traversal: seq<int>, visited: set<int>, current: int)
    requires StackInv(adj, all, target, traversal, visited, current)
    requires current !in visited && current != target
    ensures StackInv(adj, all, target, traversal + [current], visited + {current}, current)
  {
    var t := traversal + [current];
    forall i, j | 0 <= i < j < |t| ensures t[i] != t[j] {
      if j == |t| - 1 {
        assert t[i] == traversal[i] && traversal[i] in visited;
      }
    }
  }

  /** Moving on to an unvisited neighbour of the top of the stack. */
  lemma MoveStep(adj: map<int, seq<int>>, all: set<int>, target: int,
                 traversal: seq<int>, visited: set<int>, current: int, next: int)
    requires StackInv(adj, all, target, traversal, visited, current)
    requires current in visited && next in Neighbors(adj, current) && next !in visited && next in all
    ensures StackInv(adj, all, target, traversal, visited, next)
  {
  }

  /** At a dead end the top leaves the stack; if the stack empties, `target` is out of reach. */
  lemma PopStep(adj: map<int, seq<int>>, all: set<int>, target: int,
                traversal: seq<int>, visited: set<int>, current: int)
    requires StackInv(adj, all, target, traversal, visited, current)
    requires current in visited
    requires forall u :: u in Neighbors(adj, current) ==> u in visited
    ensures |traversal| > 1 ==>
              StackInv(adj, all, target, traversal[..|traversal| - 1], visited, traversal[|traversal| - 2])
    ensures |traversal| == 1 ==> !Reachable(adj, 0, target)
  {
    var t := traversal[..|traversal| - 1];
    forall v | v in visited && v !in t
      ensures forall u :: u in Neighbors(adj, v) ==> u in visited
    {
      if v != current {
        forall i | 0 <= i < |traversal| - 1 ensures traversal[i] != v {
          assert t[i] == traversal[i];
        }
        assert v !in traversal;
      }
    }
    if |traversal| > 1 {
      var top := traversal[|traversal| - 1];
      assert top !in t by {
        forall i | 0 <= i < |t| ensures t[i] != top {
          assert t[i] == traversal[i];
        }
      }
    } else {
      assert t == [];
      ClosedSeparates(adj, visited, target);
    }
  }

  /** Reaching `target`: the stack with `target` on top is a path from 0 to it. */
  lemma FinishStep(adj: map<int, seq<int>>, all: set<int>, target: int,
                   traversal: seq<int>, visited: set<int>)
    requires StackInv(adj, all, target, traversal, visited, target)
    ensures var t := traversal + [target];
            IsWalk(adj, t) && t[0] == 0 && t[|t| - 1] == target && DuplicateFree(t)
  {
    var t := traversal + [target];
    forall i, j | 0 <= i < j < |t| ensures t[i] != t[j] {
      if j == |t| - 1 {
        assert t[i] == traversal[i] && traversal[i] in visited;
      }
    }
  }

  /** The position where a scan of `nbrs` for `target` stops: the first occurrence of `target`, or `|nbrs|`. */
  ghost function Stop(nbrs: seq<int>, target: int): (k: nat)
    ensures k <= |nbrs|
    ensures forall i :: 0 <= i < k ==> nbrs[i] != target
    ensures k < |nbrs| ==> nbrs[k] == target
  {
    if nbrs == [] || nbrs[0] == target then 0 else 1 + Stop(nbrs[1..], target)
  }

  /** The entries of `l` not in `visited`, in order (repeats kept). */
  ghost function Fresh(l: seq<int>, visited: set<int>): (r: seq<int>)
    ensures forall u :: u in r <==> u in l && u !in visited
  {
    if l == [] then []
    else Fresh(l[..|l| - 1], visited) + (if l[|l| - 1] in visited then [] else [l[|l| - 1]])
  }

  /** The vertices of `l` not in `visited`, as a set. */
  ghost function Unvisited(l: seq<int>, visited: set<int>): (r: set<int>)
    ensures forall u :: u in r <==> u in l && u !in visited
  {
    set u | u in l && u !in visited
  }

  /** `pred` with every vertex of `found` mapped to `current`, overwriting; other keys keep their values. */
  ghost function Record(pred: map<int, int>, found: set<int>, current: int): (r: map<int, int>)
    ensures r.Keys == pred.Keys + found
    ensures forall k :: k in r ==> r[k] == if k in found then current else pred[k]
  {
    map k | k in pred.Keys + found :: if k in found then current else pred[k]
  }

  /** Recording one more vertex is one map update. */
  lemma RecordAdd(pred: map<int, int>, found: set<int>, current: int, u: int)
    ensures Record(pred, found + {u}, current) == Record(pred, found, current)[u := current]
  {
    var r, r' := Record(pred, found + {u}, current), Record(pred, found, current)[u := current];
    assert r.Keys == r'.Keys;
    forall k | k in r ensures r[k] == r'[k] {
    }
  }

  /**
   * What one scan of the list of `current` does to the predecessor map and the
   * queue: every unvisited neighbour before the first occurrence of `target` is
   * mapped to `current` and enqueued; `target`, when listed, is mapped to
   * `current` and ends the scan; nothing else changes.
   */
  ghost predicate Scanned(adj: map<int, seq<int>>, current: int, target: int, visited: set<int>,
                          pred: map<int, int>, queue: seq<int>, pred': map<int, int>, queue': seq<int>)
  {
    var nbrs := Neighbors(adj, current);
    && (forall k :: k in pred ==> k in pred')
    && (forall k :: k in pred' ==> (k in pred && pred'[k] == pred[k]) ||
                                   (k in nbrs && pred'[k] == current && (k == target || k !in visited)))
    && (target in pred' <==> target in pred || target in nbrs)
    && (target !in nbrs ==> forall u :: u in nbrs ==> u in visited || u in queue')
    && |queue| <= |queue'| && queue'[..|queue|] == queue
    && (forall i :: |queue| <= i < |queue'| ==>
          queue'[i] in nbrs && queue'[i] !in visited && queue'[i] != target && queue'[i] in pred')
  }

  /**
   * Exactly what one scan of the list of `current` leaves: the unvisited
   * neighbours before the first occurrence of `target` are appended to the queue
   * in list order, and they (and `target`, when listed) are mapped to `current`,
   * overwriting an earlier value; every other key keeps its value.
   */
  ghost predicate ScanResult(adj: map<int, seq<int>>, current: int, target: int, visited: set<int>,
                             pred: map<int, int>, queue: seq<int>, pred': map<int, int>, queue': seq<int>)
  {
    var nbrs := Neighbors(adj, current);
    var stop := Stop(nbrs, target);
    var found := Unvisited(nbrs[..stop], visited) + (if stop < |nbrs| then {target} else {});
    && queue' == queue + Fresh(nbrs[..stop], visited)
    && pred' == Record(pred, found, current)
  }

  /** The state of a scan of `nbrs` after its first `j` entries, none of them `target`. */
  ghost predicate ScannedUpTo(nbrs: seq<int>, j: int, current: int, target: int, visited: set<int>,
                              pred: map<int, int>, queue: seq<int>, pred': map<int, int>, queue': seq<int>)
  {
    && 0 <= j <= |nbrs|
    && (forall i :: 0 <= i < j ==> nbrs[i] != target)
    && queue' == queue + Fresh(nbrs[..j], visited)
    && pred' == Record(pred, Unvisited(nbrs[..j], visited), current)
  }

  /** Extending a scanned prefix by one entry extends what it enqueues and records by that entry alone. */
  lemma PrefixStep(nbrs: seq<int>, j: int, visited: set<int>)
    requires 0 <= j < |nbrs|
    ensures Fresh(nbrs[..j + 1], visited) == Fresh(nbrs[..j], visited) + (if nbrs[j] in visited then [] else [nbrs[j]])
    ensures Unvisited(nbrs[..j + 1], visited) == Unvisited(nbrs[..j], visited) + (if nbrs[j] in visited then {} else {nbrs[j]})
    ensures forall k :: k in nbrs[..j + 1] <==> k in nbrs[..j] || k == nbrs[j]
  {
    var l := nbrs[..j + 1];
    assert l[..|l| - 1] == nbrs[..j] && l[|l| - 1] == nbrs[j];
    assert l == nbrs[..j] + [nbrs[j]];
  }

  /** Scanning one more entry that is neither `target` nor visited: it is mapped and enqueued. */
  lemma ScanAdvanceFresh(nbrs: seq<int>, j: int, current: int, target: int, visited: set<int>,
                         pred: map<int, int>, queue: seq<int>, pred': map<int, int>, queue': seq<int>)
    requires ScannedUpTo(nbrs, j, current, target, visited, pred, queue, pred', queue')
    requires j < |nbrs| && nbrs[j] != target && nbrs[j] !in visited
    ensures ScannedUpTo(nbrs, j + 1, current, target, visited, pred, queue, pred'[nbrs[j] := current], queue' + [nbrs[j]])
  {
    PrefixStep(nbrs, j, visited);
    RecordAdd(pred, Unvisited(nbrs[..j], visited), current, nbrs[j]);
  }

  /** Scanning one more entry that is not `target` but is visited: nothing changes. */
  lemma ScanAdvanceVisited(nbrs: seq<int>, j: int, current: int, target: int, visited: set<int>,
                           pred: map<int, int>, queue: seq<int>, pred': map<int, int>, queue': seq<int>)
    requires ScannedUpTo(nbrs, j, current, target, visited, pred, queue, pred', queue')
    requires j < |nbrs| && nbrs[j] != target && nbrs[j] in visited
    ensures ScannedUpTo(nbrs, j + 1, current, target, visited, pred, queue, pred', queue')
  {
    PrefixStep(nbrs, j, visited);
    assert Unvisited(nbrs[..j + 1], visited) == Unvisited(nbrs[..j], visited);
    assert Fresh(nbrs[..j + 1], visited) == Fresh(nbrs[..j], visited);
  }

  /** A scan that meets `target` at position `j`, or runs off the end of the list, is complete. */
  lemma ScanFinish(adj: map<int, seq<int>>, j: int, current: int, target: int, visited: set<int>,
                   pred: map<int, int>, queue: seq<int>, pred': map<int, int>, queue': seq<int>)
    requires ScannedUpTo(Neighbors(adj, current), j, current, target, visited, pred, queue, pred', queue')
    requires j == |Neighbors(adj, current)| || Neighbors(adj, current)[j] == target
    ensures var pred'' := if j < |Neighbors(adj, current)| then pred'[target := current] else pred';
            ScanResult(adj, current, target, visited, pred, queue, pred'', queue')
  {
    var nbrs := Neighbors(adj, current);
    assert Stop(nbrs, target) == j;
    if j == |nbrs| {
      assert nbrs[..j] == nbrs;
    } else {
      RecordAdd(pred, Unvisited(nbrs[..j], visited), current, target);
    }
  }

  /**
   * Vertex 1 lists 5, 9, 7 and 9 is the target: the scan maps 5 and 9 to 1,
   * enqueues only 5 and never reaches 7, and that is the only possible outcome.
   */
  lemma ScanStopsAtTarget(pred': map<int, int>, queue': seq<int>)
    ensures ScanResult(map[1 := [5, 9, 7]], 1, 9, {1}, map[], [], pred', queue')
            <==> pred' == map[5 := 1, 9 := 1] && queue' == [5]
  {
    var nbrs := [5, 9, 7];
    assert Neighbors(map[1 := nbrs], 1) == nbrs;
    assert Stop(nbrs, 9) == 1 by {
      assert nbrs[1..] == [9, 7];
    }
    assert nbrs[..1] == [5];
    assert Fresh([5], {1}) == [5] by {
      assert [5][..0] == [];
    }
    assert Unvisited([5], {1}) == {5};
  }

  /** The exact effect of a scan has the properties the search's invariant relies on. */
  lemma ScanResultScanned(adj: map<int, seq<int>>, current: int, target: int, visited: set<int>,
                          pred: map<int, int>, queue: seq<int>, pred': map<int, int>, queue': seq<int>)
    requires ScanResult(adj, current, target, visited, pred, queue, pred', queue')
    ensures Scanned(adj, current, target, visited, pred, queue, pred', queue')
  {
    var nbrs := Neighbors(adj, current);
    var stop := Stop(nbrs, target);
    var added := Fresh(nbrs[..stop], visited);
    assert queue'[..|queue|] == queue;
    forall i | |queue| <= i < |queue'|
      ensures queue'[i] in nbrs && queue'[i] !in visited && queue'[i] != target && queue'[i] in pred'
    {
      assert queue'[i] == added[i - |queue|] && added[i - |queue|] in added;
    }
    if target !in nbrs {
      assert stop == |nbrs| && nbrs[..stop] == nbrs;
      forall u | u in nbrs ensures u in visited || u in queue' {
        if u !in visited {
          assert u in added;
          var i :| 0 <= i < |added| && added[i] == u;
          assert queue'[|queue| + i] == u;
        }
      }
    }
  }

  /** Queue and visited set of the breadth-first search (the source is vertex 0). */
  ghost predicate QueueOk(all: set<int>, target: int, queue: seq<int>, visited: set<int>, pred: map<int, int>)
  {
    && visited <= all && (forall i :: 0 <= i < |queue| ==> queue[i] in all)
    && (visited == {} ==> queue == [0] && pred == map[])
    && (visited != {} ==> 0 in visited)
    && (target != 0 ==> target !in visited && target !in queue && 0 !in pred)
    && (forall i :: 0 <= i < |queue| ==> queue[i] == 0 || queue[i] in pred)
  }

  /** Each key of `pred` is listed by its value, a visited vertex; visited vertices are reachable from 0. */
  ghost predicate PredOk(adj: map<int, seq<int>>, visited: set<int>, pred: map<int, int>)
  {
    && (forall k :: k in pred ==> pred[k] in visited && k in Neighbors(adj, pred[k]))
    && (forall v :: v in visited ==> Reachable(adj, 0, v))
  }

  /** Until `target` is a key, each neighbour of a visited vertex is visited or queued. */
  ghost predicate FrontierOk(adj: map<int, seq<int>>, target: int, queue: seq<int>, visited: set<int>, pred: map<int, int>)
  {
    target !in pred ==>
      forall v :: v in visited ==> forall u :: u in Neighbors(adj, v) ==> u in visited || u in queue
  }

  /** `rank` numbers the visited vertices in visiting order, each after its predecessor. */
  ghost predicate RankOk(target: int, visited: set<int>, pred: map<int, int>, rank: map<int, nat>)
  {
    && rank.Keys == visited && (forall v :: v in rank ==> rank[v] < |visited|)
    && (target != 0 ==>
          forall v :: v in visited ==> v == 0 || (v in pred && pred[v] in rank && rank[pred[v]] < rank[v]))
  }

  /** The loop state of the breadth-first search. */
  ghost predicate BfsInv(adj: map<int, seq<int>>, all: set<int>, target: int, queue: seq<int>,
                         visited: set<int>, pred: map<int, int>, rank: map<int, nat>)
  {
    && QueueOk(all, target, queue, visited, pred)
    && PredOk(adj, visited, pred)
    && FrontierOk(adj, target, queue, visited, pred)
    && RankOk(target, visited, pred, rank)
  }

  /** Polling a vertex that is already visited. */
  lemma BfsSkip(adj: map<int, seq<int>>, all: set<int>, target: int, queue: seq<int>,
                visited: set<int>, pred: map<int, int>, rank: map<int, nat>)
    requires BfsInv(adj, all, target, queue, visited, pred, rank)
    requires queue != [] && queue[0] in visited
    ensures BfsInv(adj, all, target, queue[1..], visited, pred, rank)
  {
    if target !in pred {
      forall v | v in visited
        ensures forall u :: u in Neighbors(adj, v) ==> u in visited || u in queue[1..]
      {
        forall u | u in Neighbors(adj, v) ensures u in visited || u in queue[1..] {
          assert u in visited || u in queue;
          if u !in visited {
            assert u == queue[0] || u in queue[1..];
          }
        }
      }
    }
  }

  lemma VisitQueue(adj: map<int, seq<int>>, all: set<int>, target: int, queue: seq<int>,
                   visited: set<int>, pred: map<int, int>, pred': map<int, int>, queue': seq<int>)
    requires Symmetric(adj) && adj.Keys <= all
    requires QueueOk(all, target, queue, visited, pred)
    requires queue != [] && queue[0] !in visited
    requires Scanned(adj, queue[0], target, visited + {queue[0]}, pred, queue[1..], pred', queue')
    ensures QueueOk(all, target, queue', visited + {queue[0]}, pred')
  {
    var current := queue[0];
    forall i | 0 <= i < |queue'| ensures queue'[i] in all && (queue'[i] == 0 || queue'[i] in pred') {
      if i < |queue| - 1 {
        assert queue'[i] == queue[1..][i] == queue[i + 1];
      } else {
        NeighborIsKey(adj, current, queue'[i]);
      }
    }
  }

  lemma VisitPred(adj: map<int, seq<int>>, all: set<int>, target: int, queue: seq<int>,
                  visited: set<int>, pred: map<int, int>, pred': map<int, int>, queue': seq<int>)
    requires QueueOk(all, target, queue, visited, pred) && PredOk(adj, visited, pred)
    requires queue != [] && queue[0] !in visited
    requires Scanned(adj, queue[0], target, visited + {queue[0]}, pred, queue[1..], pred', queue')
    ensures PredOk(adj, visited + {queue[0]}, pred')
  {
    var current := queue[0];
    if current == 0 {
      ReachableRefl(adj, 0);
    } else {
      ReachableStep(adj, 0, pred[current], current);
    }
  }

  lemma VisitFrontier(adj: map<int, seq<int>>, all: set<int>, target: int, queue: seq<int>,
                      visited: set<int>, pred: map<int, int>, pred': map<int, int>, queue': seq<int>)
    requires FrontierOk(adj, target, queue, visited, pred)
    requires queue != [] && queue[0] !in visited
    requires Scanned(adj, queue[0], target, visited + {queue[0]}, pred, queue[1..], pred', queue')
    ensures FrontierOk(adj, target, queue', visited + {queue[0]}, pred')
  {
    var current := queue[0];
    var visited' := visited + {current};
    if target !in pred' {
      forall v | v in visited'
        ensures forall u :: u in Neighbors(adj, v) ==> u in visited' || u in queue'
      {
        if v != current {
          forall u | u in Neighbors(adj, v) ensures u in visited' || u in queue' {
            if u !in visited && u != current {
              assert u in queue;
              assert u in queue[1..];
              var i :| 0 <= i < |queue[1..]| && queue[1..][i] == u;
              assert queue'[i] == u;
            }
          }
        }
      }
    }
  }

  lemma VisitRank(adj: map<int, seq<int>>, all: set<int>, target: int, queue: seq<int>,
                  visited: set<int>, pred: map<int, int>, rank: map<int, nat>,
                  pred': map<int, int>, queue': seq<int>)
    requires QueueOk(all, target, queue, visited, pred) && PredOk(adj, visited, pred)
    requires RankOk(target, visited, pred, rank)
    requires queue != [] && queue[0] !in visited
    requires Scanned(adj, queue[0], target, visited + {queue[0]}, pred, queue[1..], pred', queue')
    ensures RankOk(target, visited + {queue[0]}, pred', rank[queue[0] := |visited|])
  {
    var current := queue[0];
    var visited' := visited + {current};
    var rank' := rank[current := |visited|];
    assert |visited'| == |visited| + 1;
    if target != 0 {
      assert target != current;
      forall v | v in visited' ensures v == 0 || (v in pred' && pred'[v] in rank' && rank'[pred'[v]] < rank'[v]) {
        if v != 0 {
          assert v in pred && pred'[v] == pred[v];
          assert pred[v] in visited && pred[v] != current;
        }
      }
    }
  }

  /** Polling an unvisited vertex: it is visited, ranked last, and its list is scanned. */
  lemma BfsVisit(adj: map<int, seq<int>>, all: set<int>, target: int, queue: seq<int>,
                 visited: set<int>, pred: map<int, int>, rank: map<int, nat>,
                 pred': map<int, int>, queue': seq<int>)
    requires Symmetric(adj) && adj.Keys <= all
    requires BfsInv(adj, all, target, queue, visited, pred, rank)
    requires queue != [] && queue[0] !in visited
    requires Scanned(adj, queue[0], target, visited + {queue[0]}, pred, queue[1..], pred', queue')
    ensures BfsInv(adj, all, target, queue', visited + {queue[0]}, pred', rank[queue[0] := |visited|])
  {
    VisitQueue(adj, all, target, queue, visited, pred, pred', queue');
    VisitPred(adj, all, target, queue, visited, pred, pred', queue');
    VisitFrontier(adj, all, target, queue, visited, pred, pred', queue');
    VisitRank(adj, all, target, queue, visited, pred, rank, pred', queue');
  }

  /**
   * A predecessor forest: each key is listed by its ranked value, and following
   * the map from a ranked vertex other than 0 strictly lowers the rank.
   */
  ghost predicate PredTree(adj: map<int, seq<int>>, pred: map<int, int>, rank: map<int, nat>)
  {
    && (forall k :: k in pred ==> pred[k] in rank && k in Neighbors(adj, pred[k]))
    && (forall v :: v in rank ==> v == 0 || (v in pred && rank[pred[v]] < rank[v]))
  }

  /** Following the predecessor map from `v` back to 0: a path read backwards, ranks falling. */
  ghost function TraceBack(adj: map<int, seq<int>>, pred: map<int, int>, rank: map<int, nat>, v: int): (p: seq<int>)
    requires PredTree(adj, pred, rank) && v in rank
    ensures |p| > 0 && p[0] == v && p[|p| - 1] == 0
    ensures forall i :: 0 <= i < |p| ==> p[i] in rank
    ensures forall i :: 0 <= i < |p| - 1 ==> p[i] in Neighbors(adj, p[i + 1])
    ensures forall i, j :: 0 <= i < j < |p| ==> rank[p[j]] < rank[p[i]]
    decreases rank[v]
  {
    if v == 0 then [0] else [v] + TraceBack(adj, pred, rank, pred[v])
  }

  /** The search ends: `target` is a key exactly when it is reachable, and the map is a forest. */
  lemma BfsDone(adj: map<int, seq<int>>, all: set<int>, target: int,
                visited: set<int>, pred: map<int, int>, rank: map<int, nat>)
    requires BfsInv(adj, all, target, [], visited, pred, rank) && target != 0
    ensures target in pred <==> Reachable(adj, 0, target)
    ensures PredTree(adj, pred, rank) && target !in rank
  {
    if target in pred {
      ReachableStep(adj, 0, pred[target], target);
    } else {
      ClosedSeparates(adj, visited, target);
    }
  }

  /** In a symmetric graph the map read back from a reached `target` is a route to 0. */
  lemma PredRoute(adj: map<int, seq<int>>, pred: map<int, int>, rank: map<int, nat>, target: int)
    requires Symmetric(adj) && PredTree(adj, pred, rank) && target in pred && target !in rank
    ensures Route(adj, [target] + TraceBack(adj, pred, rank, pred[target]), target)
  {
    var t := TraceBack(adj, pred, rank, pred[target]);
    var p := [target] + t;
    forall i, j | 0 <= i < j < |p| ensures p[i] != p[j] {
      if i == 0 {
        assert p[j] == t[j - 1] && t[j - 1] in rank;
      } else {
        assert rank[t[j - 1]] < rank[t[i - 1]];
      }
    }
    BackPathIsRoute(adj, p, target, set x | x in p);
  }

  class MazeGraph {
    static const SOURCE: int := 0
    static const MAX_RECURSIVE_SEARCH: int := 700

    var adjacencyLists: map<int, seq<int>>
    var edgeCount: int

    /** Passages are recorded at both ends and the lists hold two entries per edge. */
    ghost predicate Valid()
      reads this
    {
      Symmetric(adjacencyLists) && SumDegrees(adjacencyLists) == 2 * edgeCount
    }

    /** A graph of `vertices` cells numbered from 0, none joined to another. */
    constructor (vertices: int)
      ensures Valid()
      ensures forall v :: v in adjacencyLists <==> 0 <= v < vertices
      ensures forall v :: v in adjacencyLists ==> adjacencyLists[v] == []
      ensures edgeCount == 0
    {
      var lists: map<int, seq<int>> := map[];
      var i := 0;
      while i < vertices
        invariant 0 <= i && (i <= vertices || i == 0)
        invariant forall v :: v in lists <==> 0 <= v < i
        invariant forall v :: v in lists ==> lists[v] == []
      {
        lists := lists[i := []];
        i := i + 1;
      }
      adjacencyLists := lists;
      edgeCount := 0;
      new;
      SumDegreesEmptyLists(adjacencyLists);
    }

    /** Whether both ends are vertices and `second` is on the list of `first`. */
    method ContainsEdge(first: int, second: int) returns (found: bool)
      ensures found <==> first in adjacencyLists && second in adjacencyLists && second in adjacencyLists[first]
    {
      if first in adjacencyLists && second in adjacencyLists {
        var list := adjacencyLists[first];
        var j := 0;
        while j < |list|
          invariant 0 <= j <= |list|
          invariant second !in list[..j]
        {
          if list[j] == second {
            return true;
          }
          assert list[..j + 1] == list[..j] + [list[j]];
          j := j + 1;
        }
        assert list[..j] == list;
      }
      return false;
    }

    /** Puts `second` at the head of the list of `first`, starting a list if `first` has none. */
    method AddDirectedEdge(first: int, second: int)
      modifies this
      ensures adjacencyLists == AddArc(old(adjacencyLists), first, second)
      ensures edgeCount == old(edgeCount)
    {
      if first !in adjacencyLists {
        assert [second] + Neighbors(adjacencyLists, first) == [second];
        adjacencyLists := adjacencyLists[first := [second]];
      } else {
        adjacencyLists := adjacencyLists[first := [second] + adjacencyLists[first]];
      }
    }

    /**
     * Adds the passage `first`-`second` unless it is already there. An unknown
     * end becomes a vertex. The lists stay symmetric, and duplicate-free when
     * the two ends differ; the count of edges grows by one per passage added.
     */
    method AddEdge(first: int, second: int)
      requires Valid()
      modifies this
      ensures Valid()
      ensures second in Neighbors(old(adjacencyLists), first) ==>
                adjacencyLists == old(adjacencyLists) && edgeCount == old(edgeCount)
      ensures second !in Neighbors(old(adjacencyLists), first) ==>
                adjacencyLists == WithEdge(old(adjacencyLists), first, second) && edgeCount == old(edgeCount) + 1
      ensures adjacencyLists.Keys == old(adjacencyLists).Keys + {first, second}
      ensures second in Neighbors(adjacencyLists, first) && first in Neighbors(adjacencyLists, second)
      ensures forall v :: v != first && v != second ==> Neighbors(adjacencyLists, v) == Neighbors(old(adjacencyLists), v)
      ensures NoDuplicates(old(adjacencyLists)) && first != second ==> NoDuplicates(adjacencyLists)
    {
      ghost var adj := adjacencyLists;
      var present := ContainsEdge(first, second);
      if present {
        assert first in Neighbors(adj, second);
        return;
      }
      if second in Neighbors(adj, first) {
        NeighborIsKey(adj, first, second);
      }
      AddDirectedEdge(first, second);
      AddDirectedEdge(second, first);
      edgeCount := edgeCount + 1;
      assert adjacencyLists == WithEdge(adj, first, second);
      WithEdgeSymmetric(adj, first, second);
      SumDegreesUpdate(adj, first, [second] + Neighbors(adj, first));
      SumDegreesUpdate(AddArc(adj, first, second), second, [first] + Neighbors(AddArc(adj, first, second), second));
      WithEdgeNeighbors(adj, first, second, first, second);
      WithEdgeNeighbors(adj, first, second, second, first);
      if NoDuplicates(adj) && first != second {
        WithEdgeNoDuplicates(adj, first, second);
      }
    }

    /**
     * One wall descriptor per vertex: a fresh cell whose door towards each listed
     * neighbour is open, the direction judged from the difference of the indices.
     */
    method CellMap() returns (cells: map<int, Cell>)
      ensures cells.Keys == adjacencyLists.Keys
      ensures forall k :: k in cells ==> fresh(cells[k]) && fresh(cells[k].doors)
      ensures forall k :: k in cells ==> cells[k].doors[..] == DoorsFor(k, adjacencyLists[k])
      ensures forall k, k' :: k in cells && k' in cells && k != k' ==> cells[k].doors != cells[k'].doors
    {
      cells := map[];
      var remaining := adjacencyLists.Keys;
      while remaining != {}
        invariant remaining <= adjacencyLists.Keys
        invariant cells.Keys == adjacencyLists.Keys - remaining
        invariant forall k :: k in cells ==> fresh(cells[k]) && fresh(cells[k].doors)
        invariant forall k :: k in cells ==> cells[k].doors[..] == DoorsFor(k, adjacencyLists[k])
        invariant forall k, k' :: k in cells && k' in cells && k != k' ==> cells[k].doors != cells[k'].doors
        decreases remaining
      {
        EmptyOrHasMember(remaining);
        var key :| key in remaining;
        var current := adjacencyLists[key];
        var newCell := new Cell();
        var j := 0;
        while j < |current|
          invariant 0 <= j <= |current|
          invariant newCell.doors.Length == 4
          invariant newCell.doors[..] == DoorsFor(key, current[..j])
          modifies newCell.doors
        {
          var wallReference := key - current[j];
          if wallReference < 0 {
            if wallReference == -1 {
              newCell.SetDoor(Cell.EAST);
            } else {
              newCell.SetDoor(Cell.SOUTH);
            }
          } else {
            if wallReference == 1 {
              newCell.SetDoor(Cell.WEST);
            } else {
              newCell.SetDoor(Cell.NORTH);
            }
          }
          assert current[..j + 1][..j] == current[..j];
          j := j + 1;
        }
        assert current[..j] == current;
        cells := cells[key := newCell];
        remaining := remaining - {key};
      }
    }

    /**
     * Depth-first search from `current`. On success the vertices from `target`
     * back to `current` are appended and form a path; otherwise every vertex
     * newly visited has all its neighbours visited and none is `target`.
     * `traversal` and `visited` stand for the collections the search shares.
     */
    method DfsRecursive(current: int, target: int, traversal: seq<int>, visited: set<int>)
      returns (found: bool, traversal': seq<int>, visited': set<int>)
      requires Valid()
      ensures visited <= visited' && target !in visited' - visited
      ensures found ==> |traversal'| > |traversal| && traversal'[..|traversal|] == traversal &&
                        BackPath(adjacencyLists, traversal'[|traversal|..], target, current, visited' - visited)
      ensures !found ==> traversal' == traversal && current != target && current in visited'
      ensures !found ==> forall v :: v in visited' - visited ==>
                           forall u :: u in Neighbors(adjacencyLists, v) ==> u in visited' && u != target
      decreases (adjacencyLists.Keys + {current}) - visited
    {
      if current == target {
        traversal' := traversal + [current];
        assert traversal'[|traversal|..] == [current];
        return true, traversal', visited;
      }
      traversal', visited' := traversal, visited;
      if current !in visited {
        visited' := visited + {current};
        var neighbors := Neighbors(adjacencyLists, current);
        var j := 0;
        while j < |neighbors|
          invariant 0 <= j <= |neighbors|
          invariant visited + {current} <= visited' && target !in visited' - visited
          invariant traversal' == traversal
          invariant forall i :: 0 <= i < j ==> neighbors[i] in visited' && neighbors[i] != target
          invariant forall v :: v in visited' - visited - {current} ==>
                      forall u :: u in Neighbors(adjacencyLists, v) ==> u in visited' && u != target
        {
          NeighborIsKey(adjacencyLists, current, neighbors[j]);
          var f, t, vis := DfsRecursive(neighbors[j], target, traversal', visited');
          if f {
            ExtendBackPath(adjacencyLists, t[|traversal|..], target, neighbors[j], current, vis - visited', vis - visited);
            assert (t + [current])[|traversal|..] == t[|traversal|..] + [current];
            return true, t + [current], vis;
          }
          visited' := vis;
          j := j + 1;
        }
      }
      return false, traversal', visited';
    }

    /**
     * Depth-first search from 0 with an explicit stack. The stack is always a
     * path from 0 through visited vertices, and a vertex leaves it only once all
     * its neighbours are visited. Returns the stack with `target` on top, or
     * `None` where backing up past 0 peeks into an empty stack.
     */
    method DfsIterative(target: int) returns (r: Option<seq<int>>)
      requires Valid()
      ensures r.Some? ==> IsWalk(adjacencyLists, r.value) && r.value[0] == SOURCE &&
                          r.value[|r.value| - 1] == target && DuplicateFree(r.value)
      ensures r.None? ==> !Reachable(adjacencyLists, SOURCE, target)
    {
      ghost var all := adjacencyLists.Keys + {SOURCE};
      var traversal: seq<int> := [];
      var visited: set<int> := {};
      var currentCell := SOURCE;
      while currentCell != target
        invariant StackInv(adjacencyLists, all, target, traversal, visited, currentCell)
        decreases 3 * |all - visited| + |traversal| - (if currentCell in visited then 0 else 1)
      {
        if currentCell !in visited {
          CardRemove(all, visited, currentCell);
          VisitStep(adjacencyLists, all, target, traversal, visited, currentCell);
          visited := visited + {currentCell};
          traversal := traversal + [currentCell];
        }
        var cell := currentCell;
        var neighborList := Neighbors(adjacencyLists, cell);
        var j := FirstUnvisited(neighborList, visited);
        if j < |neighborList| {
          NeighborIsKey(adjacencyLists, cell, neighborList[j]);
          MoveStep(adjacencyLists, all, target, traversal, visited, cell, neighborList[j]);
          currentCell := neighborList[j];
        } else {
          // dead end: step back
          PopStep(adjacencyLists, all, target, traversal, visited, cell);
          traversal := traversal[..|traversal| - 1];
          if traversal == [] {
            return None;
          }
          currentCell := traversal[|traversal| - 1];
        }
      }
      FinishStep(adjacencyLists, all, target, traversal, visited);
      traversal := traversal + [currentCell];
      return Some(traversal);
    }

    /**
     * The route from the last vertex back to 0, or an empty list when there are
     * too few edges for a spanning tree or no route. The recursive search is used
     * up to `MAX_RECURSIVE_SEARCH` vertices; beyond it the stack search, whose
     * stack is popped into the list (so reversed), and `None` stands for the
     * exception it raises when the last vertex is out of reach.
     */
    method Dfs() returns (r: Option<seq<int>>)
      requires Valid()
      ensures edgeCount < |adjacencyLists| - 1 ==> r == Some([])
      ensures r.Some? && r.value != [] ==> Route(adjacencyLists, r.value, |adjacencyLists| - 1)
      ensures (r.Some? && r.value != []) <==>
                edgeCount >= |adjacencyLists| - 1 && Reachable(adjacencyLists, SOURCE, |adjacencyLists| - 1)
      ensures r.None? <==> |adjacencyLists| > MAX_RECURSIVE_SEARCH && edgeCount >= |adjacencyLists| - 1 &&
                           !Reachable(adjacencyLists, SOURCE, |adjacencyLists| - 1)
    {
      if edgeCount < |adjacencyLists| - 1 {
        return Some([]);
      }
      var target := |adjacencyLists| - 1;
      if |adjacencyLists| <= MAX_RECURSIVE_SEARCH {
        var found, traversal, visited := DfsRecursive(SOURCE, target, [], {});
        if found {
          assert traversal[0..] == traversal;
          BackPathIsRoute(adjacencyLists, traversal, target, visited);
        } else {
          assert visited - {} == visited;
          ClosedSeparates(adjacencyLists, visited, target);
        }
        return Some(traversal);
      }
      var result := DfsIterative(target);
      if result.None? {
        return None;
      }
      var stack := result.value;
      var traversal := [];
      while stack != []
        invariant |stack| + |traversal| == |result.value| && stack == result.value[..|stack|]
        invariant forall i :: 0 <= i < |traversal| ==> traversal[i] == result.value[|result.value| - 1 - i]
      {
        traversal := traversal + [stack[|stack| - 1]];
        stack := stack[..|stack| - 1];
      }
      assert traversal == Reverse(result.value);
      ReversedWalkIsRoute(adjacencyLists, result.value, target);
      return Some(traversal);
    }

    /** One scan of the list of `current`, with `visited` already holding `current`. */
    method ScanNeighbors(current: int, target: int, visited: set<int>, pred: map<int, int>, queue: seq<int>)
      returns (pred': map<int, int>, queue': seq<int>)
      ensures ScanResult(adjacencyLists, current, target, visited, pred, queue, pred', queue')
    {
      var nbrs := Neighbors(adjacencyLists, current);
      pred', queue' := pred, queue;
      var j := 0;
      assert queue' == queue + Fresh(nbrs[..j], visited);
      while j < |nbrs| && nbrs[j] != target
        invariant ScannedUpTo(nbrs, j, current, target, visited, pred, queue, pred', queue')
      {
        if nbrs[j] !in visited {
          ScanAdvanceFresh(nbrs, j, current, target, visited, pred, queue, pred', queue');
          pred' := pred'[nbrs[j] := current];
          queue' := queue' + [nbrs[j]];
        } else {
          ScanAdvanceVisited(nbrs, j, current, target, visited, pred, queue, pred', queue');
        }
        j := j + 1;
      }
      ScanFinish(adjacencyLists, j, current, target, visited, pred, queue, pred', queue');
      if j < |nbrs| {
        pred' := pred'[target := current];
      }
    }

    /**
     * Breadth-first search from 0 recording, for each vertex it meets, the vertex
     * it was met from. `rank` (ghost) is the order of visiting. The map lists only
     * passages from vertices reachable from 0; unless `target` is 0, 0 is never a
     * key, the map is a forest leading back to 0, and `target` is a key exactly
     * when it is reachable.
     */
    method BfsIterative(target: int) returns (pred: map<int, int>, ghost rank: map<int, nat>)
      requires Valid()
      ensures forall k :: k in pred ==> k in Neighbors(adjacencyLists, pred[k]) &&
                                        Reachable(adjacencyLists, SOURCE, pred[k])
      ensures target != SOURCE ==> SOURCE !in pred && PredTree(adjacencyLists, pred, rank) && target !in rank
      ensures target != SOURCE ==> (target in pred <==> Reachable(adjacencyLists, SOURCE, target))
    {
      ghost var all := adjacencyLists.Keys + {SOURCE};
      var queue := [SOURCE];
      var visited: set<int> := {};
      pred, rank := map[], map[];
      while queue != []
        invariant BfsInv(adjacencyLists, all, target, queue, visited, pred, rank)
        decreases |all - visited|, |queue|
      {
        var current := queue[0];
        if current in visited {
          BfsSkip(adjacencyLists, all, target, queue, visited, pred, rank);
          queue := queue[1..];
          continue;
        }
        CardRemove(all, visited, current);
        var pred', queue' := ScanNeighbors(current, target, visited + {current}, pred, queue[1..]);
        ScanResultScanned(adjacencyLists, current, target, visited + {current}, pred, queue[1..], pred', queue');
        BfsVisit(adjacencyLists, all, target, queue, visited, pred, rank, pred', queue');
        rank := rank[current := |visited|];
        visited := visited + {current};
        pred, queue := pred', queue';
      }
      if target != SOURCE {
        BfsDone(adjacencyLists, all, target, visited, pred, rank);
      }
    }

    /**
     * The predecessor map of a breadth-first search for the last vertex, or an
     * empty map when there are too few edges for a spanning tree.
     */
    method Bfs() returns (pred: map<int, int>, ghost rank: map<int, nat>)
      requires Valid()
      ensures edgeCount < |adjacencyLists| - 1 ==> pred == map[]
      ensures forall k :: k in pred ==> k in Neighbors(adjacencyLists, pred[k]) &&
                                        Reachable(adjacencyLists, SOURCE, pred[k])
      ensures |adjacencyLists| != 1 ==>
                SOURCE !in pred && PredTree(adjacencyLists, pred, rank) && |adjacencyLists| - 1 !in rank
      ensures |adjacencyLists| != 1 ==>
                (|adjacencyLists| - 1 in pred <==>
                 edgeCount >= |adjacencyLists| - 1 && Reachable(adjacencyLists, SOURCE, |adjacencyLists| - 1))
    {
      if edgeCount < |adjacencyLists| - 1 {
        return map[], map[];
      }
      pred, rank := BfsIterative(|adjacencyLists| - 1);
    }

    /** The number of undirected edges: half the total length of the lists. */
    method GetEdgeCount() returns (count: int)
      requires Valid()
      ensures count == edgeCount && 2 * count == SumDegrees(adjacencyLists)
    {
      count := edgeCount;
    }
  }
}

=== FILE: wrappers.dfy ===
/** Small failure-carrying wrapper used where the modelled code throws. */
module Wrappers {

  /** `None` stands for an operation that ends in an exception instead of a value. */
  datatype Option<+T> = None | Some(value: T)
}
